=== FILE: README.md ===
# emi-near-field-collector, modelled in Dafny

The collector drives a CNC plotter over a board on a grid. At each grid stop it
asks a spectrum analyser (SA) for one trace and writes the trace to
`x<x>_y<y>.csv`. A separate processing step then:

- reads every CSV back, tagging each row with the position taken from its file name;
- optionally subtracts a background scan;
- splits the frequency span into bands;
- integrates each position's curve over each band;
- keeps one colour scale shared by all the band heatmaps.

This project models those pieces as pure Dafny functions over exact reals and proves their properties:

| module | file | models |
|---|---|---|
| `Outcomes` | outcomes.dfy | `Option` and `Result`, for Python's exceptions and early exits |
| `Slicing` | slicing.dfy | Python slice bounds, `str.find`, `str.endswith`, list comprehension filters |
| `Samples` | samples.dfy | CSV rows, tagged samples, positions and their (x, y) order |
| `Bands` | bands.dfy | `define_ranges` |
| `Labels` | labels.dfy | `define_unit`, `define_plot_titles` |
| `Loader` | loader.dfy | `load_measurement`: file-name parse, row tagging, column rename |
| `Coords` | coords.dfy | `get_meas_coords` on a table's `x` and `y` columns |
| `Background` | background.dfy | `remove_background` |
| `Aggregate` | aggregate.dfy | `integrate_amplitude_squared`, `integrate_amplitude_divide_pi` |
| `ColorScale` | colorscale.dfy | the `color_max` / `color_min` tracking in `measurement_interpolation` |
| `Spectrum` | spectrum.dfy | `query_spectrum` framing, `calculate_frequencies`, `save_data` |
| `Scan` | scan.dfy | the scan plan in `measure.py`'s `main` |
| `Pipeline` | pipeline.dfy | how a file written by the scan is read back by the loader |

Some behaviour depends on things the model cannot see. These become parameters:

- number formatting (`f"{v:.1f}"`, `f"{x_pos}"`) is `fmt` or `show: real -> string`;
- `float()` on a coordinate text is `parse: string -> Option<real>`;
- `round(f, 1)` is `round: real -> real`;
- whether the output directory exists is a boolean.

The directory listing becomes a sequence of `CsvFile(name, rows)`, and the spectrum analyser's reply is a byte sequence.

Python behaviour is written out explicitly where it matters:

- float `%` is floor modulo, `a - b * floor(a / b)`;
- `//` is floor division;
- `int(a / b)` truncates toward zero;
- slices clamp and accept negative bounds;
- pandas' positional subtraction of two columns of different lengths gives NaN, modelled as `None`.

Five behaviours of the code worth knowing:

- **`define_ranges` with an aligned start.** When `start % step == 0`, the code returns the single band `(start, end)`. It does not return an empty first band. So a span starting at 0 with step 15 and ending at 30 gives `[(0, 30)]`.
- **A tail band below `start`.** When the first band overshoots `end` by more than one step, `num_ranges` is below -1 and the last band starts further down. With start 30, end 35 and step 50 the bands are `(30, 100)` and `(0, 35)`. The second covers frequencies below `start`.
- **Colour scale source.** The shared colour scale is taken from the sparse per-position values of each band, not from the interpolated mesh. The code reads `df["a"]` before the spline is fitted.
- **Block count not checked.** `query_spectrum` never compares the declared byte count with the payload length. It takes everything between the header and the last byte.
- **An empty band stops the integration.** When no row lies strictly inside a band, its grouped table has no rows but still has four columns (`x`, `y`, `f` and `a`), and assigning three column names to it raises a length mismatch. Both integration functions therefore fail at the first such band, and `define_ranges` can produce one: when the first band overshoots `end`, the tail band it appends may hold no sampled frequency strictly inside.

## Model

| member | source | states |
|---|---|---|
| Bands.DefineRanges | src/near-field-emi/data_process.py:40-51 | fails exactly when `step` is zero (`start % step` raises); otherwise at least one band and at most `2 + max(num_ranges, 0)`, and the first band runs from `start` to `end1` |
| Bands.AlignedStartGivesOneBand | src/near-field-emi/data_process.py:42-51 | a start that is a multiple of `step` gives exactly one band, `(start, end)` |
| Bands.FirstBandDoublesBoundary | src/near-field-emi/data_process.py:43-44 | for an unaligned positive start, `ceil(start/step)*step` is the first step boundary above `start`, and the first band ends at twice that boundary, beyond `2*start` |
| Bands.ModZeroMeansMultiple | src/near-field-emi/data_process.py:43 | Python float `%` lies in `[0, step)` and is zero exactly when the value is a whole multiple of `step` |
| Bands.TilingWhenFirstBandFits | src/near-field-emi/data_process.py:43-51 | when the first band ends within `end`, the bands are contiguous, the last ends at `end`, every middle band is `step` wide, and the last is at most `step` wide, shorter exactly when `end - end1` is not a multiple of `step` |
| Bands.OverlapWhenFirstBandOvershoots | src/near-field-emi/data_process.py:43-51 | when the first band ends past `end`, `num_ranges` is negative, no step-wide band is emitted, there is a tail band exactly when `(end - end1) % step != 0`, and that tail starts at `end1 + num_ranges * step`, less than one step below `end` and below `end1`, overlapping the first band |
| Bands.OvershootExample | src/near-field-emi/data_process.py:40-51 | start 30, end 60, step 50 gives the overlapping bands `(30, 100)` and `(50, 60)` |
| Bands.TailBelowStartExample | src/near-field-emi/data_process.py:40-51 | start 30, end 35, step 50 gives `(30, 100)` and `(0, 35)`: with `num_ranges` at -2 the last band starts below `start` |
| Labels.ExactlyOneUnit | src/near-field-emi/data_process.py:29-37 | the thresholds 1e3, 1e6, 1e9 put every number in exactly one unit, with a scaled value of at least 1 (except Hz) and below 1000 (except GHz) |
| Labels.DefineUnit | src/near-field-emi/data_process.py:29-37 | the label is the number divided by its unit's power, formatted, followed by a space and the unit's symbol |
| Labels.UnitRecoveredFromLabel | src/near-field-emi/data_process.py:29-37 | the unit can be read back from a label's suffix, and it is the unit whose range holds the number |
| Labels.UnitOfSuffixed | src/near-field-emi/data_process.py:31-37 | the four suffixes ` GHz`, ` MHz`, ` kHz`, ` Hz` are told apart by the text alone |
| Labels.DefinePlotTitles | src/near-field-emi/data_process.py:54-61 | one title per band, in band order, each `"<start> - <end>"`, and each title ends in the unit of its band's upper edge |
| Slicing.Find | src/near-field-emi/data_process.py:16 | `str.find` gives -1 exactly when the character is absent, and otherwise the index of its first occurrence |
| Loader.CoordinateTexts | src/near-field-emi/data_process.py:16-18 | the x text is `name[1:floor]` and the y text `name[floor + 2:-4]`, with `floor` the index of the first `_`; its meaning is stated by the two lemmas below |
| Loader.CoordinateTextsRoundTrip | src/near-field-emi/data_process.py:16-18 | for a name `c + x + "_" + d + y + ".csv"` with no `_` in `c` or `x`, the two slices recover `x` and `y` exactly |
| Loader.LeadingUnderscore | src/near-field-emi/data_process.py:16-17 | a name starting with `_` yields an empty x text, because `find` looks at the first character too |
| Loader.Tag | src/near-field-emi/data_process.py:22-23 | every row of a file keeps its frequency and amplitude and receives the file's x and y |
| Loader.LoadMeasurement | src/near-field-emi/data_process.py:12-26 | loading succeeds exactly when every `.csv` name's coordinates parse; a failure reports the first `.csv` entry in listing order whose name does not parse, with the x text if `float()` rejects it and the y text otherwise |
| Loader.LoadedRowCount | src/near-field-emi/data_process.py:13-24 | the combined table has as many rows as all `.csv` files together; other files contribute nothing |
| Loader.LoadedAllRows | src/near-field-emi/data_process.py:13-24 | a successful load is the concatenation, in listing order, of every `.csv` file's rows tagged with that file's position |
| Loader.LoadedRowAt | src/near-field-emi/data_process.py:13-24 | row `i` of the `k`-th listing entry, a `.csv` file, is row `c + i` of the table, where `c` counts the rows of the `.csv` files listed before it, tagged with the file's position |
| Loader.LoadedRowsAreTaggedFileRows | src/near-field-emi/data_process.py:13-24 | a sample is in the combined table exactly when it is a row of some `.csv` file tagged with that file's position |
| Loader.SingleFileTagging | src/near-field-emi/data_process.py:12-26 | a single file `x<X>_y<Y>.csv` loads as its rows tagged with `float(X)` and `float(Y)` |
| Loader.SplitJoin | src/near-field-emi/control/SA.py:103-105 | fields without a comma, joined with commas as `savetxt` writes a row, split back at commas into exactly those fields |
| Coords.SortedDistinct | src/near-field-emi/data_process.py:65-66 | `sorted(unique(...))` is strictly increasing and holds exactly the values of its input |
| Coords.StrictlyIncreasingUnique | src/near-field-emi/data_process.py:65-66 | two strictly increasing sequences with the same elements are equal, so `sorted(unique(...))` has one answer |
| Coords.GetMeasCoords | src/near-field-emi/data_process.py:64-67 | both axes are strictly increasing, and a value is on an axis exactly when it occurs in that column |
| ColorScale.BandCoords | src/near-field-emi/data_process.py:127 | on a band table, both axes are strictly increasing and hold exactly the x and y values of its rows |
| ColorScale.IntegratedBandCoords | src/near-field-emi/data_process.py:83-93 | the axes of an integrated band's table hold exactly the x and y values of the measurement rows strictly inside the band |
| Background.RemoveBackground | src/near-field-emi/data_process.py:74-78 | the result keeps the measurement's length and positions, rounds every frequency, and has an amplitude exactly at the row indices the background also has (NaN beyond), namely the measurement's amplitude minus the background's at that index |
| Background.IdenticalTablesCancel | src/near-field-emi/data_process.py:76 | subtracting a table from itself gives amplitude 0 on every row |
| Background.OnlyBackgroundAmplitudesMatter | src/near-field-emi/data_process.py:74-77 | the background's positions and frequencies never affect the result, only its amplitudes by row index |
| Background.LookupFindsUniqueKey | src/near-field-emi/data_process.py:74-77 | a join on (x, y, rounded f) finds a background row's amplitude by its key when no earlier row shares that key |
| Background.AlignedTablesAgreeWithJoin | src/near-field-emi/data_process.py:74-77 | when both tables list the same keys in the same order, the row-index subtraction matches a subtraction joined on (x, y, rounded f) |
| Background.MisalignedTablesDisagreeWithJoin | src/near-field-emi/data_process.py:74-77 | with the same rows listed in a different order, the row-index subtraction and the keyed one give different amplitudes |
| Aggregate.Trapezoid | src/near-field-emi/data_process.py:89 | `integrate.trapezoid(ys, x=xs)` as the sum of neighbouring trapezoids; its meaning is stated by the three lemmas below |
| Aggregate.TrapezoidOfConstant | src/near-field-emi/data_process.py:89 | the trapezoid rule integrates a constant curve to the constant times the covered frequency span |
| Aggregate.TrapezoidNonNegative | src/near-field-emi/data_process.py:89 | a non-negative curve over non-decreasing frequencies has a non-negative integral |
| Aggregate.TrapezoidSplit | src/near-field-emi/data_process.py:89 | the integral splits at any row into the integrals of the two halves |
| Aggregate.ReduceConstantAmplitude | src/near-field-emi/data_process.py:81-113 | a constant amplitude `c` reduces to `c * span / pi` (divide-by-pi policy) or `c * c * span` (squared policy) |
| Aggregate.SquaredReduceNonNegative | src/near-field-emi/data_process.py:89 | the squared policy never gives a negative value when frequencies do not decrease |
| Aggregate.Interior | src/near-field-emi/data_process.py:84-86 | a row is kept exactly when its frequency is strictly between the band's edges |
| Aggregate.InteriorConcat | src/near-field-emi/data_process.py:84-86 | the mask keeps table order and repeats: the interior of `t1 + t2` is the interior of `t1` followed by that of `t2` |
| Aggregate.InteriorOfSingleton | src/near-field-emi/data_process.py:84-86 | a one-row table keeps its row exactly when the frequency is strictly inside the band |
| Aggregate.GroupRowsConcat | src/near-field-emi/data_process.py:87-89 | a position's group keeps its rows in table order: the group in `t1 + t2` is the group in `t1` followed by that in `t2` |
| Aggregate.GroupRowsOfSingleton | src/near-field-emi/data_process.py:87-89 | a one-row table contributes its row to its own position's group and to no other |
| Aggregate.GroupKeys | src/near-field-emi/data_process.py:87-88 | the `groupby(["x", "y"])` keys are every position that occurs, each once, in increasing (x, y) order |
| Aggregate.IntegrateBand | src/near-field-emi/data_process.py:81-94 | a band's table has one row per position with at least one row strictly inside the band, in increasing (x, y) order, each holding the reduction of that position's interior rows; the table is empty exactly when no row lies strictly inside the band |
| Aggregate.IntegrateBands | src/near-field-emi/data_process.py:81-113 | both integration functions fail exactly when some band has no row strictly inside it, reporting the first such band; otherwise they give one non-empty table per band, in band order, with the squared or divide-by-pi reduction |
| Aggregate.OvershootStopsIntegration | src/near-field-emi/data_process.py:83-93 | with start 30, end 60 and step 50 the bands are `(30, 100)` and `(50, 60)`; on a trace sampled at 30, 40, 50 and 60 the second holds no row strictly inside, so the integration fails at band 1 |
| Aggregate.BoundaryRowInNoBand | src/near-field-emi/data_process.py:83-86 | in contiguous bands, a row on any band's lower or upper edge, the outer edges included, is used by no band at all |
| Aggregate.DefineRangesChained | src/near-field-emi/data_process.py:40-51 | when the first band has positive width and ends at or before `end`, the bands are chained: each has positive width and starts where the previous ends |
| Aggregate.DefinedEdgeRowInNoBand | src/near-field-emi/data_process.py:83-86 | for such bands from `define_ranges`, a row on any band edge, `start` and `end` included, goes into no band's table |
| ColorScale.MinValue | src/near-field-emi/data_process.py:123-124 | `df["a"].min()` is at most every value and is one of them |
| ColorScale.MaxValue | src/near-field-emi/data_process.py:125-126 | `df["a"].max()` is at least every value and is one of them |
| ColorScale.MeasurementColorScale | src/near-field-emi/data_process.py:120-126 | `color_max` is non-negative, bounds every band value, and is 0 or a band value; `color_min` stays infinite exactly when every band is empty, and otherwise is the smallest band value |
| Spectrum.QuerySpectrum | src/near-field-emi/control/SA.py:20-30 | an empty reply or one not opening with `#` is rejected, a missing or non-digit length byte is rejected, and otherwise a count field that is empty or not all decimal digits is rejected; a reply is accepted exactly when `#` is followed by a digit `N >= 1` and a non-empty all-digit count field, and its payload is the bytes from `2 + N` up to but not including the last |
| Spectrum.NonDigitCountRejected | src/near-field-emi/control/SA.py:27-28 | a block `#2ab` followed by anything is rejected, because `int()` rejects the count field `ab` |
| Spectrum.BlockRoundTrip | src/near-field-emi/control/SA.py:24-30 | a block `#`, N, N count digits, payload, terminator yields exactly the payload, whatever count the digits declare |
| Spectrum.IndefiniteBlockRejected | src/near-field-emi/control/SA.py:27-28 | the indefinite form `#0` is rejected, because the empty count field does not parse |
| Spectrum.CalculateFrequencies | src/near-field-emi/control/SA.py:50-53 | a negative count is rejected; otherwise `count` values, starting at `start` and ending at `stop` when there are at least two |
| Spectrum.FrequenciesEvenlySpaced | src/near-field-emi/control/SA.py:50-53 | neighbouring frequencies are all `(stop - start) / (count - 1)` apart |
| Spectrum.SaveData | src/near-field-emi/control/SA.py:94-107 | rows are produced exactly when the parent directory exists; row `i` pairs the `i`-th frequency of `start..stop` with `data[i]` |
| Scan.CountFitsBoard | src/near-field-emi/measure.py:109-110 | `int(size / step)` is the largest count of whole steps that fits the board |
| Scan.GridIndex | src/near-field-emi/measure.py:149-153 | the nested loops make `countX * countY` stops, stop `i * countY + j` at `(STEP_X*i + origin.x, STEP_Y*j + origin.y, origin.z)` |
| Scan.GridVisitOrder | src/near-field-emi/measure.py:149-153 | with positive steps, stops are visited in strictly increasing (x, y) order |
| Scan.ScanPlan | src/near-field-emi/measure.py:109-153 | a zero step is rejected (`ZeroDivisionError`); otherwise the plan starts at the offset origin and every stop is at the origin's height |
| Scan.ScanPlanStops | src/near-field-emi/measure.py:109-153 | with positive steps on a board of non-negative size, the plan has `int(x/STEP_X) * int(y/STEP_Y)` stops with the index formula above, in increasing (x, y) order |
| Scan.FileName | src/near-field-emi/measure.py:161 | the stop's file name `x<x>_y<y>.csv`, with the coordinate printing as a parameter; `Pipeline.StopFileLoadsAtStop` states that it parses back |
| Scan.Moves | src/near-field-emi/measure.py:146-164 | the plotter moves to the origin, then to every stop, then back to the recorded start |
| Scan.MovesStayAtProbeHeight | src/near-field-emi/measure.py:138-153 | every move before the return to the start is at the start height plus the z offset |
| Pipeline.HeaderNamesRenamed | src/near-field-emi/control/SA.py:103-105 | the header `save_data` writes is the two column names joined with a comma, so by `Loader.SplitJoin` it splits back into `# f[Hz]` and ` a[dB]`, which the loader renames to `f` and `a` |
| Pipeline.StopFileLoadsAtStop | src/near-field-emi/measure.py:151-161 | a stop's file loads as its rows tagged with the stop's x and y, when coordinates print without `_` and parse back |
| Pipeline.SavedTraceLoadsBack | src/near-field-emi/control/SA.py:94-105 | a saved trace loads back as one sample per value, at the stop's position, with that value's frequency |
| Pipeline.ScanLoadsAtStops | src/near-field-emi/measure.py:149-162 | loading a whole scan's files succeeds, and every loaded sample sits at one of the stops |

## Left out

- Instrument and plotter I/O are not modelled: VXI-11 queries, serial ports, G-code moves, `time.sleep`. The plotter's start position and the SA's reply are inputs.
- Argument parsing and the two `main` functions are not modelled, apart from the scan plan. This includes directory creation and the detector and unit selection.
- The scipy spline fit, the dense mesh and all plotting and image export are not modelled. `render_emimap.py` and `control/CNC.py` are not part of this model.
- `np.frombuffer` decoding of the payload as `float32` is not modelled, including the error when the length is not a multiple of 4. The model returns the payload bytes.
- Spectrum.QuerySpectrum: the count field must be ASCII digits only. Python's `int()` also accepts surrounding whitespace, a sign and underscores, and those inputs are rejected here. A non-digit length byte is also rejected, as `int()` does.
- Spectrum.CalculateFrequencies: values are exact reals. The `float32` rounding of `np.linspace` is not modelled.
- Labels.DefineUnit: the `.1f` formatting is a parameter. Rounding that pushes a value to `1000.0` in the label is not modelled.
- Loader.LoadMeasurement: the order of `os.listdir` and the CSV parser are not modelled. Files come as a sequence of names with already parsed rows, and `float()` on a coordinate text is a parameter.
- Background.RemoveBackground: NaN propagation into the later steps is not modelled. A `None` amplitude is only reported.
- Aggregate.IntegrateBand: values are exact reals; IEEE rounding and NaN amplitudes are not modelled. The groupby keys are the positions themselves, so two floats that compare equal are one key.
- ColorScale.MeasurementColorScale: pandas' skipping of NaN in `min` and `max` is not modelled, because the band values are reals.
- Scan.ScanPlan: the steps and the board size are integers, as the command line delivers them. A float step and the float arithmetic of the positions are not modelled.
- Pipeline.ScanLoadsAtStops: it assumes the printed coordinates contain no `_` and parse back to the same value. A negative zero or any other formatting detail is not modelled.

=== FILE: aggregate.dfy ===
/** The band aggregator (`integrate_amplitude_squared`,
    `integrate_amplitude_divide_pi`): per band, the rows strictly inside the
    band are grouped by position and each group's curve is reduced with the
    trapezoid rule (`scipy.integrate.trapezoid`). */
module Aggregate {
  import opened Outcomes
  import opened Slicing
  import opened Samples
  import opened Coords
  import opened Bands

  /** Which quantity is integrated over frequency. */
  datatype Policy = Amplitude | AmplitudeSquared

  /** One row of a band's table: a position and its aggregated value. */
  datatype BandValue = BandValue(x: real, y: real, a: real)

  /** Why integration stops: band `index` has no row strictly inside it, so
      its grouped table has no groups but keeps all four columns `x`, `y`,
      `f` and `a`, and naming it with three columns fails. */
  datatype AggregateError = EmptyBand(index: nat)

  /** `np.pi` to 16 significant digits. */
  const Pi: real := 3.141592653589793

  /** `trapezoid(ys, x=xs)`: the sum over neighbouring rows of
      `(xs[k+1] - xs[k]) * (ys[k] + ys[k+1]) / 2`; zero for fewer than two rows. */
  function Trapezoid(ys: seq<real>, xs: seq<real>): real
    requires |ys| == |xs|
    decreases |xs|
  {
    if |xs| < 2 then 0.0
    else (xs[1] - xs[0]) * (ys[0] + ys[1]) / 2.0 + Trapezoid(ys[1..], xs[1..])
  }

  predicate NonDecreasing(xs: seq<real>) {
    forall i, j :: 0 <= i < j < |xs| ==> xs[i] <= xs[j]
  }

  /** A constant curve integrates to the constant times the covered span. */
  lemma {:induction false} TrapezoidOfConstant(c: real, ys: seq<real>, xs: seq<real>)
    requires |ys| == |xs| && 1 <= |xs|
    requires forall k :: 0 <= k < |ys| ==> ys[k] == c
    ensures Trapezoid(ys, xs) == c * (xs[|xs| - 1] - xs[0])
    decreases |xs|
  {
    if |xs| >= 2 {
      TrapezoidOfConstant(c, ys[1..], xs[1..]);
      assert (xs[1] - xs[0]) * (c + c) / 2.0 == c * (xs[1] - xs[0]);
    }
  }

  /** A non-negative curve over non-decreasing frequencies integrates to a
      non-negative value. */
  lemma {:induction false} TrapezoidNonNegative(ys: seq<real>, xs: seq<real>)
    requires |ys| == |xs|
    requires NonDecreasing(xs)
    requires forall k :: 0 <= k < |ys| ==> 0.0 <= ys[k]
    ensures 0.0 <= Trapezoid(ys, xs)
    decreases |xs|
  {
    if |xs| >= 2 {
      TrapezoidNonNegative(ys[1..], xs[1..]);
      assert 0.0 <= xs[1] - xs[0];
      assert 0.0 <= (xs[1] - xs[0]) * (ys[0] + ys[1]);
    }
  }

  /** The integral over a curve splits at any interior row into the
      integrals on both sides. */
  lemma {:induction false} TrapezoidSplit(ys: seq<real>, xs: seq<real>, k: nat)
    requires |ys| == |xs| && k < |xs|
    ensures Trapezoid(ys, xs) == Trapezoid(ys[..k + 1], xs[..k + 1]) + Trapezoid(ys[k..], xs[k..])
    decreases k
  {
    if k > 0 {
      TrapezoidSplit(ys[1..], xs[1..], k - 1);
      assert ys[1..][..k] == ys[..k + 1][1..];
      assert xs[1..][..k] == xs[..k + 1][1..];
      assert ys[1..][k - 1..] == ys[k..];
      assert xs[1..][k - 1..] == xs[k..];
    }
  }

  function Frequencies(group: seq<Sample>): (r: seq<real>)
    ensures |r| == |group| && forall k :: 0 <= k < |group| ==> r[k] == group[k].f
  {
    seq(|group|, k requires 0 <= k < |group| => group[k].f)
  }

  /** The integrand: `g.a` or `g.a ** 2`. */
  function Integrand(policy: Policy, group: seq<Sample>): (r: seq<real>)
    ensures |r| == |group|
    ensures forall k :: 0 <= k < |group| ==> r[k] == if policy == Amplitude then group[k].a else group[k].a * group[k].a
  {
    seq(|group|, k requires 0 <= k < |group| => if policy == Amplitude then group[k].a else group[k].a * group[k].a)
  }

  /** The value of one position's group: `trapezoid(g.a, x=g.f) / pi` or `trapezoid(g.a ** 2, x=g.f)`. */
  function Reduce(policy: Policy, group: seq<Sample>): real {
    var area := Trapezoid(Integrand(policy, group), Frequencies(group));
    if policy == Amplitude then area / Pi else area
  }

  /** A constant amplitude `c` over frequencies from `f0` to `fn` reduces to
      `c * (fn - f0) / pi`, or `c * c * (fn - f0)` when squared. */
  lemma ReduceConstantAmplitude(policy: Policy, group: seq<Sample>, c: real)
    requires 1 <= |group|
    requires forall k :: 0 <= k < |group| ==> group[k].a == c
    ensures var span := group[|group| - 1].f - group[0].f;
            Reduce(policy, group) == if policy == Amplitude then c * span / Pi else c * c * span
  {
    var ys := Integrand(policy, group);
    TrapezoidOfConstant(if policy == Amplitude then c else c * c, ys, Frequencies(group));
  }

  /** Squared amplitudes over non-decreasing frequencies never give a negative value. */
  lemma SquaredReduceNonNegative(group: seq<Sample>)
    requires NonDecreasing(Frequencies(group))
    ensures 0.0 <= Reduce(AmplitudeSquared, group)
  {
    TrapezoidNonNegative(Integrand(AmplitudeSquared, group), Frequencies(group));
  }

  /** `measurement[(f > start) & (f < end)]`: both band edges are excluded. */
  function Interior(table: seq<Sample>, b: Band): (r: seq<Sample>)
    ensures forall s :: s in r <==> s in table && b.lo < s.f < b.hi
  {
    Filter((s: Sample) => b.lo < s.f < b.hi, table)
  }

  /** The mask keeps rows in table order: the interior of two tables one
      after the other is the first's interior followed by the second's. */
  lemma InteriorConcat(t1: seq<Sample>, t2: seq<Sample>, b: Band)
    ensures Interior(t1 + t2, b) == Interior(t1, b) + Interior(t2, b)
  {
    FilterConcat((s: Sample) => b.lo < s.f < b.hi, t1, t2);
  }

  /** One row is kept exactly when it lies strictly inside the band. */
  lemma InteriorOfSingleton(s: Sample, b: Band)
    ensures Interior([s], b) == if b.lo < s.f < b.hi then [s] else []
  {
    FilterSingleton((s: Sample) => b.lo < s.f < b.hi, s);
  }

  /** A band with no row strictly inside it gets no rows. */
  lemma {:induction false} NothingInside(table: seq<Sample>, b: Band)
    requires forall i :: 0 <= i < |table| ==> !(b.lo < table[i].f < b.hi)
    ensures Interior(table, b) == []
  {
    if table != [] {
      assert forall i :: 0 <= i < |table[1..]| ==> table[1..][i] == table[i + 1];
      NothingInside(table[1..], b);
    }
  }

  /** The rows of one position, in table order. */
  function GroupRows(table: seq<Sample>, p: Pos): (r: seq<Sample>)
    ensures forall s :: s in r <==> s in table && PosOf(s) == p
  {
    Filter((s: Sample) => PosOf(s) == p, table)
  }

  /** Grouping keeps the rows of a position in table order. */
  lemma GroupRowsConcat(t1: seq<Sample>, t2: seq<Sample>, p: Pos)
    ensures GroupRows(t1 + t2, p) == GroupRows(t1, p) + GroupRows(t2, p)
  {
    FilterConcat((s: Sample) => PosOf(s) == p, t1, t2);
  }

  /** One row belongs to the group of its own position and no other. */
  lemma GroupRowsOfSingleton(s: Sample, p: Pos)
    ensures GroupRows([s], p) == if PosOf(s) == p then [s] else []
  {
    FilterSingleton((s: Sample) => PosOf(s) == p, s);
  }

  predicate Occurs(table: seq<Sample>, p: Pos) {
    exists s :: s in table && PosOf(s) == p
  }

  /** The distinct y values seen together with `x`, ascending. */
  function YsAt(table: seq<Sample>, x: real): (r: seq<real>)
    ensures StrictlyIncreasing(r)
    ensures forall y :: y in r <==> Occurs(table, Pos(x, y))
  {
    var column := Filter((s: Sample) => s.x == x, table);
    var r := SortedDistinct(Ys(column));
    assert forall y :: y in r <==> y in Elements(Ys(column));
    forall y
      ensures y in r <==> Occurs(table, Pos(x, y))
    {
      if Occurs(table, Pos(x, y)) {
        var s :| s in table && PosOf(s) == Pos(x, y);
        var i :| 0 <= i < |column| && column[i] == s;
        assert Ys(column)[i] == y;
      }
      if y in r {
        var i :| 0 <= i < |column| && Ys(column)[i] == y;
        assert column[i] in table && PosOf(column[i]) == Pos(x, y);
      }
    }
    r
  }

  /** The keys `(x, y)` for one x and its ascending y values. */
  function RowKeys(x: real, ys: seq<real>): (r: seq<Pos>)
    requires StrictlyIncreasing(ys)
    ensures PosIncreasing(r)
    ensures forall p :: p in r <==> p.x == x && p.y in ys
  {
    var r := seq(|ys|, j requires 0 <= j < |ys| => Pos(x, ys[j]));
    forall p: Pos | p.x == x && p.y in ys
      ensures p in r
    {
      var j :| 0 <= j < |ys| && ys[j] == p.y;
      assert r[j] == p;
    }
    r
  }

  /** The keys of the groups whose x is among `xs`, sorted. */
  function KeysFrom(table: seq<Sample>, xs: seq<real>): (r: seq<Pos>)
    requires StrictlyIncreasing(xs)
    ensures PosIncreasing(r)
    ensures forall p :: p in r <==> p.x in xs && Occurs(table, p)
    ensures forall p :: p in r ==> xs[0] <= p.x
    decreases |xs|, 1
  {
    if |xs| == 0 then []
    else
      var row := RowKeys(xs[0], YsAt(table, xs[0]));
      var rest := KeysFrom(table, xs[1..]);
      RestRightOf(table, xs);
      assert forall p, q :: p in row && q in rest ==> PosBefore(p, q);
      ConcatIncreasing(row, rest);
      HeadAndTail(xs);
      row + rest
  }

  /** The keys built from the later x values all lie right of the first one. */
  lemma RestRightOf(table: seq<Sample>, xs: seq<real>)
    requires StrictlyIncreasing(xs) && 0 < |xs|
    ensures StrictlyIncreasing(xs[1..])
    ensures forall p :: p in KeysFrom(table, xs[1..]) ==> xs[0] < p.x
    decreases |xs|, 0
  {
    if 1 < |xs| {
      assert xs[1..][0] == xs[1];
    }
  }

  lemma HeadAndTail(xs: seq<real>)
    requires 0 < |xs|
    ensures forall v :: v in xs <==> v == xs[0] || v in xs[1..]
  {
    assert xs == [xs[0]] + xs[1..];
  }

  /** The sorted keys of `groupby(["x", "y"])`: every position that occurs, once. */
  function GroupKeys(table: seq<Sample>): (r: seq<Pos>)
    ensures PosIncreasing(r)
    ensures forall p :: p in r <==> Occurs(table, p)
    ensures r == [] <==> table == []
  {
    var xs := SortedDistinct(Xs(table));
    forall p | Occurs(table, p)
      ensures p.x in xs
    {
      var s :| s in table && PosOf(s) == p;
      var i :| 0 <= i < |table| && table[i] == s;
      assert Xs(table)[i] == p.x;
      assert p.x in Elements(Xs(table));
    }
    assert table != [] ==> Occurs(table, PosOf(table[0]));
    KeysFrom(table, xs)
  }

  function PosOfValue(v: BandValue): Pos {
    Pos(v.x, v.y)
  }

  function Positions(r: seq<BandValue>): (ps: seq<Pos>)
    ensures |ps| == |r| && forall k :: 0 <= k < |r| ==> ps[k] == PosOfValue(r[k])
  {
    seq(|r|, k requires 0 <= k < |r| => PosOfValue(r[k]))
  }

  /** A position has an interior row exactly when one of its rows lies strictly inside the band. */
  lemma OccursInside(table: seq<Sample>, b: Band)
    ensures forall p :: Occurs(Interior(table, b), p) <==> exists s :: s in table && PosOf(s) == p && b.lo < s.f < b.hi
  {
    var inner := Interior(table, b);
    forall p
      ensures Occurs(inner, p) <==> exists s :: s in table && PosOf(s) == p && b.lo < s.f < b.hi
    {
      if exists s :: s in table && PosOf(s) == p && b.lo < s.f < b.hi {
        var s :| s in table && PosOf(s) == p && b.lo < s.f < b.hi;
        assert s in inner;
      }
    }
  }

  /** `intervals[i]` for one band: one row per position with at least one
      row strictly inside the band, in sorted position order, holding the
      reduction of that position's interior rows. */
  function IntegrateBand(policy: Policy, table: seq<Sample>, b: Band): (r: seq<BandValue>)
    ensures PosIncreasing(Positions(r))
    ensures forall p :: p in Positions(r) <==> exists s :: s in table && PosOf(s) == p && b.lo < s.f < b.hi
    ensures forall k :: 0 <= k < |r| ==> r[k].a == Reduce(policy, GroupRows(Interior(table, b), PosOfValue(r[k])))
    ensures r == [] <==> Interior(table, b) == []
  {
    var inner := Interior(table, b);
    var keys := GroupKeys(inner);
    var r := seq(|keys|, k requires 0 <= k < |keys| => BandValue(keys[k].x, keys[k].y, Reduce(policy, GroupRows(inner, keys[k]))));
    assert Positions(r) == keys;
    OccursInside(table, b);
    r
  }

  /** The first band with no row strictly inside it. */
  function FirstEmptyBand(table: seq<Sample>, bands: seq<Band>): (k: nat)
    requires exists i :: 0 <= i < |bands| && Interior(table, bands[i]) == []
    ensures k < |bands| && Interior(table, bands[k]) == []
    ensures forall i :: 0 <= i < k ==> Interior(table, bands[i]) != []
    decreases |bands|
  {
    if Interior(table, bands[0]) == [] then 0
    else
      var i :| 0 <= i < |bands| && Interior(table, bands[i]) == [];
      assert bands[1..][i - 1] == bands[i];
      var k := FirstEmptyBand(table, bands[1..]);
      assert forall j :: 1 <= j <= k ==> bands[j] == bands[1..][j - 1];
      k + 1
  }

  /** Both integration functions: one table per band, in band order. The
      loop stops at the first band with no interior row, where assigning the
      three column names to the four-column empty result raises. */
  function IntegrateBands(policy: Policy, table: seq<Sample>, bands: seq<Band>): (r: Result<seq<seq<BandValue>>, AggregateError>)
    ensures r.Failure? <==> exists i :: 0 <= i < |bands| && Interior(table, bands[i]) == []
    ensures r.Failure? ==>
      && r.error.index < |bands|
      && Interior(table, bands[r.error.index]) == []
      && forall i :: 0 <= i < r.error.index ==> Interior(table, bands[i]) != []
    ensures r.Success? ==>
      && |r.value| == |bands|
      && forall i :: 0 <= i < |bands| ==> r.value[i] == IntegrateBand(policy, table, bands[i]) && r.value[i] != []
  {
    if exists i :: 0 <= i < |bands| && Interior(table, bands[i]) == [] then
      Failure(EmptyBand(FirstEmptyBand(table, bands)))
    else
      Success(seq(|bands|, i requires 0 <= i < |bands| => IntegrateBand(policy, table, bands[i])))
  }

  /** With `start = 30, end = 60, step = 50`, a trace sampled every 10
      has no row strictly inside the second band, so integration stops
      there: `define_ranges` overshooting the end makes the aggregator raise. */
  lemma OvershootStopsIntegration(policy: Policy, x: real, y: real, a: seq<real>)
    requires |a| == 4
    ensures var table := [Sample(x, y, 30.0, a[0]), Sample(x, y, 40.0, a[1]), Sample(x, y, 50.0, a[2]), Sample(x, y, 60.0, a[3])];
            DefineRanges(30.0, 60.0, 50.0).Success? &&
            IntegrateBands(policy, table, DefineRanges(30.0, 60.0, 50.0).value) == Failure(EmptyBand(1))
  {
    var table := [Sample(x, y, 30.0, a[0]), Sample(x, y, 40.0, a[1]), Sample(x, y, 50.0, a[2]), Sample(x, y, 60.0, a[3])];
    OvershootExample();
    var bands := [Band(30.0, 100.0), Band(50.0, 60.0)];
    assert table[1] in Interior(table, bands[0]);
    NothingInside(table, bands[1]);
  }

  /** Bands placed end to end, each with positive width. */
  predicate Chained(bands: seq<Band>) {
    && (forall i :: 0 <= i < |bands| ==> bands[i].lo < bands[i].hi)
    && (forall i :: 0 <= i < |bands| - 1 ==> bands[i].hi == bands[i + 1].lo)
  }

  lemma {:induction false} ChainedEdgesIncrease(bands: seq<Band>, i: int, j: int)
    requires Chained(bands) && 0 <= i < j < |bands|
    ensures bands[i].hi <= bands[j].lo
    decreases j - i
  {
    if j > i + 1 {
      ChainedEdgesIncrease(bands, i + 1, j);
    }
  }

  /** In a chain of bands, a row whose frequency is a band's lower or upper
      edge lies inside no band at all, so it contributes to no band's table. */
  lemma BoundaryRowInNoBand(table: seq<Sample>, bands: seq<Band>, s: Sample, e: int)
    requires Chained(bands) && 0 <= e < |bands| && (s.f == bands[e].lo || s.f == bands[e].hi)
    ensures forall i :: 0 <= i < |bands| ==> s !in Interior(table, bands[i])
  {
    forall i | 0 <= i < |bands|
      ensures !(bands[i].lo < s.f < bands[i].hi)
    {
      if i < e {
        ChainedEdgesIncrease(bands, i, e);
      } else if e < i {
        ChainedEdgesIncrease(bands, e, i);
      }
    }
  }

  /** When the first band `(start, end1)` has positive width and fits in the
      span, `define_ranges` returns a chain: every band has positive width
      and each starts where the previous one ends. */
  lemma DefineRangesChained(start: real, end: real, step: real)
    requires step > 0.0 && start < FirstEnd(start, end, step) <= end
    ensures DefineRanges(start, end, step).Success?
    ensures Chained(DefineRanges(start, end, step).value)
  {
    if Mod(start, step) == 0.0 {
      AlignedStartGivesOneBand(start, end, step);
    } else {
      TilingWhenFirstBandFits(start, end, step);
      var b := DefineRanges(start, end, step).value;
      forall i | 0 <= i < |b|
        ensures b[i].lo < b[i].hi
      {
        if 0 < i < |b| - 1 {
          assert b[i].hi - b[i].lo == step;
        }
      }
    }
  }

  /** For the bands `define_ranges` returns when its first band fits, a row
      whose frequency is any band edge, `start` and `end` included, goes
      into no band's table. */
  lemma DefinedEdgeRowInNoBand(table: seq<Sample>, start: real, end: real, step: real, s: Sample, e: int)
    requires step > 0.0 && start < FirstEnd(start, end, step) <= end
    requires 0 <= e < |DefineRanges(start, end, step).value|
    requires s.f == DefineRanges(start, end, step).value[e].lo || s.f == DefineRanges(start, end, step).value[e].hi
    ensures var bands := DefineRanges(start, end, step).value;
            forall i :: 0 <= i < |bands| ==> s !in Interior(table, bands[i])
  {
    DefineRangesChained(start, end, step);
    BoundaryRowInNoBand(table, DefineRanges(start, end, step).value, s, e);
  }
}

=== FILE: background.dfy ===
/** Background subtraction (`remove_background`). `round` stands for
    `round(f, 1)`. The subtraction `main["a"] - back["a"]` aligns the two
    tables on their row index, which `load_measurement` numbers from 0, so
    row `i` of the background is subtracted from row `i` of the main table;
    a main row with no background row at its index gets NaN. */
module Background {
  import opened Outcomes
  import opened Samples

  /** A row of the corrected table; `a` is `None` where the result is NaN. */
  datatype Corrected = Corrected(x: real, y: real, f: real, a: Option<real>)

  /** `remove_background(backmeas, mainmeas)`. */
  function RemoveBackground(round: real -> real, back: seq<Sample>, main: seq<Sample>): (r: seq<Corrected>)
    ensures |r| == |main|
    ensures forall i :: 0 <= i < |main| ==> r[i].x == main[i].x && r[i].y == main[i].y
    ensures forall i :: 0 <= i < |main| ==> r[i].f == round(main[i].f)
    ensures forall i :: 0 <= i < |main| ==> (r[i].a.Some? <==> i < |back|)
    ensures forall i :: 0 <= i < |main| && i < |back| ==> r[i].a == Some(main[i].a - back[i].a)
  {
    seq(|main|, i requires 0 <= i < |main| =>
      Corrected(main[i].x, main[i].y, round(main[i].f),
                if i < |back| then Some(main[i].a - back[i].a) else None))
  }

  /** Subtracting a table from itself leaves every amplitude at zero. */
  lemma IdenticalTablesCancel(round: real -> real, t: seq<Sample>)
    ensures forall i :: 0 <= i < |t| ==> RemoveBackground(round, t, t)[i].a == Some(0.0)
  {
  }

  /** Only the background's amplitudes, by position, reach the result: its
      x, y and f columns are never compared with the main table's. */
  lemma OnlyBackgroundAmplitudesMatter(round: real -> real, back1: seq<Sample>, back2: seq<Sample>, main: seq<Sample>)
    requires |back1| == |back2|
    requires forall i :: 0 <= i < |back1| ==> back1[i].a == back2[i].a
    ensures RemoveBackground(round, back1, main) == RemoveBackground(round, back2, main)
  {
  }

  /** The measurement key a row is matched on after rounding. */
  function Key(round: real -> real, s: Sample): (real, real, real) {
    (s.x, s.y, round(s.f))
  }

  /** The amplitude of the first background row with key `k`, as a join on
      `(x, y, round(f))` would find it. */
  function Lookup(round: real -> real, back: seq<Sample>, k: (real, real, real)): (r: Option<real>)
    ensures r.Some? <==> exists j :: 0 <= j < |back| && Key(round, back[j]) == k
  {
    if |back| == 0 then None
    else if Key(round, back[0]) == k then Some(back[0].a)
    else
      var r := Lookup(round, back[1..], k);
      assert forall j :: 1 <= j < |back| ==> back[j] == back[1..][j - 1];
      r
  }

  lemma {:induction false} LookupFindsUniqueKey(round: real -> real, back: seq<Sample>, i: int)
    requires 0 <= i < |back|
    requires forall j :: 0 <= j < i ==> Key(round, back[j]) != Key(round, back[i])
    ensures Lookup(round, back, Key(round, back[i])) == Some(back[i].a)
    decreases i
  {
    if i > 0 {
      LookupFindsUniqueKey(round, back[1..], i - 1);
    }
  }

  /** When both tables list the same keys in the same order, without
      repeats, the positional subtraction agrees with a join on the rounded
      key. */
  lemma AlignedTablesAgreeWithJoin(round: real -> real, back: seq<Sample>, main: seq<Sample>)
    requires |back| == |main|
    requires forall i :: 0 <= i < |main| ==> Key(round, back[i]) == Key(round, main[i])
    requires forall i, j :: 0 <= i < j < |back| ==> Key(round, back[i]) != Key(round, back[j])
    ensures forall i :: 0 <= i < |main| ==>
              RemoveBackground(round, back, main)[i].a
                == Some(main[i].a - Lookup(round, back, Key(round, main[i])).value)
  {
    forall i | 0 <= i < |main|
      ensures Lookup(round, back, Key(round, main[i])) == Some(back[i].a)
    {
      LookupFindsUniqueKey(round, back, i);
    }
  }

  /** Two scan orders that differ by one swap: the positional subtraction
      pairs rows of different positions, where a join would not. */
  lemma MisalignedTablesDisagreeWithJoin()
    ensures var round := (f: real) => f;
            var main := [Sample(0.0, 0.0, 1.0, 5.0), Sample(0.0, 5.0, 1.0, 7.0)];
            var back := [Sample(0.0, 5.0, 1.0, 2.0), Sample(0.0, 0.0, 1.0, 1.0)];
            && RemoveBackground(round, back, main)[0].a == Some(3.0)
            && Some(main[0].a - Lookup(round, back, Key(round, main[0])).value) == Some(4.0)
  {
    var round := (f: real) => f;
    var back := [Sample(0.0, 5.0, 1.0, 2.0), Sample(0.0, 0.0, 1.0, 1.0)];
    assert Key(round, back[0]) != (0.0, 0.0, 1.0);
    assert back[1..] == [Sample(0.0, 0.0, 1.0, 1.0)];
  }
}

=== FILE: bands.dfy ===
/** The band partitioner (`define_ranges`): splits the observed frequency
    span `[start, end]` into bands of width `step`, after a first band whose
    upper edge is twice the first step boundary above `start`. Python floats
    are modelled as exact reals. */
module Bands {
  import opened Outcomes

  /** A frequency band given by its two edges in Hz. */
  datatype Band = Band(lo: real, hi: real)

  /** `start % step` with a zero step raises `ZeroDivisionError`. */
  datatype BandError = ZeroStep

  /** Python's float `a % b`: the remainder has the sign of `b`. */
  function Mod(a: real, b: real): real
    requires b != 0.0
  {
    a - b * (a / b).Floor as real
  }

  /** `math.ceil(q)`. */
  function Ceil(q: real): int
  {
    -((-q).Floor)
  }

  /** `end1`: the upper edge of the first band. */
  function FirstEnd(start: real, end: real, step: real): real
    requires step != 0.0
  {
    if Mod(start, step) != 0.0 then Ceil(start / step) as real * step * 2.0 else end
  }

  /** `num_ranges = (end - end1) // step`, an integral value that may be negative. */
  function NumRanges(start: real, end: real, step: real): int
    requires step != 0.0
  {
    ((end - FirstEnd(start, end, step)) / step).Floor
  }

  /** Where the optional last band starts: `end1 + num_ranges * step`. */
  function TailStart(start: real, end: real, step: real): real
    requires step != 0.0
  {
    FirstEnd(start, end, step) + NumRanges(start, end, step) as real * step
  }

  /** The `i`-th band of width `step` after the first band. */
  function FullBand(end1: real, step: real, i: int): Band
  {
    Band(end1 + i as real * step, end1 + (i + 1) as real * step)
  }

  /** The bands of width `step` emitted by the loop over `range(num_ranges)`. */
  function FullBands(end1: real, step: real, n: int): (r: seq<Band>)
    ensures |r| == if n <= 0 then 0 else n
    ensures forall i :: 0 <= i < |r| ==> r[i] == FullBand(end1, step, i)
  {
    if n <= 0 then [] else seq(n, i requires 0 <= i < n => FullBand(end1, step, i))
  }

  /** The last band `(end1 + num_ranges * step, end)`, emitted only when it starts below `end`. */
  function LastBand(start: real, end: real, step: real): seq<Band>
    requires step != 0.0
  {
    var tail := TailStart(start, end, step);
    if tail < end then [Band(tail, end)] else []
  }

  /** The list `define_ranges` returns for a non-zero step. */
  function Partition(start: real, end: real, step: real): seq<Band>
    requires step != 0.0
  {
    [Band(start, FirstEnd(start, end, step))]
      + FullBands(FirstEnd(start, end, step), step, NumRanges(start, end, step))
      + LastBand(start, end, step)
  }

  /** `define_ranges([start, end], step)`. */
  function DefineRanges(start: real, end: real, step: real): (r: Result<seq<Band>, BandError>)
    ensures r.Failure? <==> step == 0.0
    ensures r.Success? ==> 1 <= |r.value| <= 2 + (if NumRanges(start, end, step) < 0 then 0 else NumRanges(start, end, step))
    ensures r.Success? ==> r.value[0] == Band(start, FirstEnd(start, end, step))
  {
    if step == 0.0 then Failure(ZeroStep) else Success(Partition(start, end, step))
  }

  /** The floor of a quotient brackets the dividend between two multiples of a positive divisor. */
  lemma FloorBracket(d: real, step: real)
    requires step > 0.0
    ensures (d / step).Floor as real * step <= d
    ensures d < (d / step).Floor as real * step + step
  {
    var q := d / step;
    var n := q.Floor as real;
    assert n <= q < n + 1.0;
    assert q * step == d;
    MulMonotone(n, q, step);
    MulStrictMonotone(q, n + 1.0, step);
    assert (n + 1.0) * step == n * step + step;
    assert d < n * step + step;
  }

  lemma MulMonotone(a: real, b: real, c: real)
    requires a <= b && c > 0.0
    ensures a * c <= b * c
  {}

  lemma MulStrictMonotone(a: real, b: real, c: real)
    requires a < b && c > 0.0
    ensures a * c < b * c
  {}

  /** A span whose remainder is zero is an exact multiple of the step, and conversely. */
  lemma ModZeroMeansMultiple(d: real, step: real)
    requires step > 0.0
    ensures 0.0 <= Mod(d, step) < step
    ensures Mod(d, step) == 0.0 <==> (d / step).Floor as real * step == d
  {
    FloorBracket(d, step);
  }

  /** When `start` is a multiple of `step` the whole span is one band: no
      bands of width `step` are emitted. */
  lemma AlignedStartGivesOneBand(start: real, end: real, step: real)
    requires step != 0.0 && Mod(start, step) == 0.0
    ensures DefineRanges(start, end, step) == Success([Band(start, end)])
  {
    assert FirstEnd(start, end, step) == end;
    assert (end - end) / step == 0.0;
    assert NumRanges(start, end, step) == 0;
    assert TailStart(start, end, step) == end;
    assert FullBands(end, step, 0) == [];
    assert LastBand(start, end, step) == [];
    assert Partition(start, end, step) == [Band(start, end)] + [] + [];
    assert [Band(start, end)] + [] + [] == [Band(start, end)];
  }

  /** Otherwise, for positive `start` and `step`, the first band ends at twice
      the first multiple of `step` above `start`, not at that multiple. */
  lemma FirstBandDoublesBoundary(start: real, end: real, step: real)
    requires step > 0.0 && start > 0.0 && Mod(start, step) != 0.0
    ensures Ceil(start / step) as real * step - step < start
    ensures start < Ceil(start / step) as real * step
    ensures FirstEnd(start, end, step) == 2.0 * (Ceil(start / step) as real * step)
    ensures FirstEnd(start, end, step) > 2.0 * start
  {
    var q := start / step;
    QuotientTimesDivisor(start, step);
    RemainderMeansFraction(start, step);
    CeilAboveFraction(q);
    ScaledBracket(Ceil(q) as real, q, step, start);
  }

  /** Scaling by a positive step keeps a value strictly between two neighbouring integers' multiples. */
  lemma ScaledBracket(c: real, q: real, step: real, x: real)
    requires c - 1.0 < q < c && step > 0.0 && q * step == x
    ensures c * step - step < x < c * step
  {
    AboveScaled(c, q, step, x);
    BelowScaled(c, q, step, x);
  }

  lemma AboveScaled(c: real, q: real, step: real, x: real)
    requires c - 1.0 < q && step > 0.0 && q * step == x
    ensures c * step - step < x
  {
    MulStrictMonotone(c - 1.0, q, step);
    OneStepLess(c, step);
  }

  lemma BelowScaled(c: real, q: real, step: real, x: real)
    requires q < c && step > 0.0 && q * step == x
    ensures x < c * step
  {
    MulStrictMonotone(q, c, step);
  }

  lemma OneStepLess(c: real, step: real)
    ensures (c - 1.0) * step == c * step - step
  {}

  lemma QuotientTimesDivisor(a: real, b: real)
    requires b != 0.0
    ensures (a / b) * b == a
  {}

  /** A non-zero remainder means the quotient is not a whole number. */
  lemma RemainderMeansFraction(a: real, b: real)
    requires b != 0.0 && Mod(a, b) != 0.0
    ensures (a / b).Floor as real != a / b
  {
    QuotientTimesDivisor(a, b);
  }

  /** The ceiling of a fraction lies strictly between it and one above it. */
  lemma CeilAboveFraction(q: real)
    requires q.Floor as real != q
    ensures Ceil(q) as real - 1.0 < q < Ceil(q) as real
  {
    var m := q.Floor;
    assert m as real < q < m as real + 1.0;
    FloorOfNegation(q, m);
  }

  /** Strictly between `m` and `m + 1`, the negation floors to `-m - 1`. */
  lemma FloorOfNegation(q: real, m: int)
    requires m as real < q < m as real + 1.0
    ensures (-q).Floor == -m - 1
  {
    assert (-m - 1) as real < -q < (-m - 1) as real + 1.0;
  }

  /** With the first band inside the span, `num_ranges` is non-negative and
      the last band's start lies less than one step below `end`. */
  lemma FirstBandFitsFacts(start: real, end: real, step: real)
    requires step > 0.0 && Mod(start, step) != 0.0
    requires FirstEnd(start, end, step) <= end
    ensures 0 <= NumRanges(start, end, step)
    ensures FirstEnd(start, end, step) <= TailStart(start, end, step) <= end
    ensures end < TailStart(start, end, step) + step
    ensures TailStart(start, end, step) == end <==> Mod(end - FirstEnd(start, end, step), step) == 0.0
  {
    var end1 := FirstEnd(start, end, step);
    var d := end - end1;
    FloorBracket(d, step);
    ModZeroMeansMultiple(d, step);
    assert 0.0 <= d / step;
    MulMonotone(0.0, NumRanges(start, end, step) as real, step);
  }

  /** Where each piece of `Partition` sits: bands `1..num_ranges` are the
      full bands, and the optional last band follows them. */
  lemma PartitionIndex(start: real, end: real, step: real)
    requires step != 0.0
    ensures var b := Partition(start, end, step);
            var n := NumRanges(start, end, step);
            && |b| == 1 + (if n <= 0 then 0 else n) + |LastBand(start, end, step)|
            && (forall i :: 1 <= i <= n ==> b[i] == FullBand(FirstEnd(start, end, step), step, i - 1))
            && (LastBand(start, end, step) != [] ==> b[|b| - 1] == Band(TailStart(start, end, step), end))
  {
    var b := Partition(start, end, step);
    var full := FullBands(FirstEnd(start, end, step), step, NumRanges(start, end, step));
    forall i | 1 <= i <= NumRanges(start, end, step)
      ensures b[i] == FullBand(FirstEnd(start, end, step), step, i - 1)
    {
      assert b[i] == full[i - 1];
    }
  }

  /** In the fitting case band `i` ends where band `i + 1` starts. */
  lemma {:induction false} ContiguousAt(start: real, end: real, step: real, i: int)
    requires step > 0.0 && Mod(start, step) != 0.0
    requires FirstEnd(start, end, step) <= end
    requires 0 <= i < |Partition(start, end, step)| - 1
    ensures Partition(start, end, step)[i].hi == Partition(start, end, step)[i + 1].lo
  {
    FirstBandFitsFacts(start, end, step);
    var end1 := FirstEnd(start, end, step);
    var n := NumRanges(start, end, step);
    ChainedAt(Band(start, end1), step, n, TailStart(start, end, step), LastBand(start, end, step), i);
  }

  /** A first band, `n` step-wide bands from its upper edge, then at most one
      band starting where those end, meet edge to edge at every index `i`. */
  lemma {:induction false} ChainedAt(first: Band, step: real, n: int, tail: real, last: seq<Band>, i: int)
    requires 0 <= n && tail == first.hi + n as real * step
    requires |last| <= 1 && (|last| == 1 ==> last[0].lo == tail)
    requires 0 <= i < n + |last|
    ensures ([first] + FullBands(first.hi, step, n) + last)[i].hi == ([first] + FullBands(first.hi, step, n) + last)[i + 1].lo
  {
    var full := FullBands(first.hi, step, n);
    var b := [first] + full + last;
    if i < n {
      assert b[i + 1] == full[i];
      if 0 < i {
        assert b[i] == full[i - 1];
      }
    } else {
      assert b[i + 1] == last[0];
      if 0 < i {
        assert b[i] == full[n - 1];
      }
    }
  }

  /** In the fitting case each band ends where the next one starts. */
  lemma FitsContiguous(start: real, end: real, step: real)
    requires step > 0.0 && Mod(start, step) != 0.0
    requires FirstEnd(start, end, step) <= end
    ensures var b := Partition(start, end, step);
            forall i :: 0 <= i < |b| - 1 ==> b[i].hi == b[i + 1].lo
  {
    var b := Partition(start, end, step);
    forall i | 0 <= i < |b| - 1
      ensures b[i].hi == b[i + 1].lo
    {
      ContiguousAt(start, end, step, i);
    }
  }

  /** In the fitting case the last band ends at `end`, and every band after
      the first is exactly `step` wide except the last, which is at most
      `step` wide and narrower exactly when `end - end1` is not a multiple of
      `step`. */
  lemma {:induction false} FitsWidths(start: real, end: real, step: real)
    requires step > 0.0 && Mod(start, step) != 0.0
    requires FirstEnd(start, end, step) <= end
    ensures var b := Partition(start, end, step);
            && b[|b| - 1].hi == end
            && (forall i :: 1 <= i < |b| - 1 ==> b[i].hi - b[i].lo == step)
            && (1 < |b| ==> 0.0 < b[|b| - 1].hi - b[|b| - 1].lo <= step)
            && (1 < |b| ==> (b[|b| - 1].hi - b[|b| - 1].lo == step <==> Mod(end - FirstEnd(start, end, step), step) == 0.0))
  {
    FirstBandFitsFacts(start, end, step);
    PartitionIndex(start, end, step);
    var b := Partition(start, end, step);
    var n := NumRanges(start, end, step);
    var end1 := FirstEnd(start, end, step);
    var tail := TailStart(start, end, step);
    FullBandsAreStepWide(start, end, step);
    if tail < end {
      assert b[|b| - 1] == Band(tail, end);
    } else if n > 0 {
      assert b[|b| - 1] == FullBand(end1, step, n - 1);
    }
  }

  lemma FullBandsAreStepWide(start: real, end: real, step: real)
    requires step != 0.0
    ensures forall i :: 1 <= i <= NumRanges(start, end, step) ==>
              Partition(start, end, step)[i].hi - Partition(start, end, step)[i].lo == step
  {
    PartitionIndex(start, end, step);
    var b := Partition(start, end, step);
    var end1 := FirstEnd(start, end, step);
    forall i | 1 <= i <= NumRanges(start, end, step)
      ensures b[i].hi - b[i].lo == step
    {
      assert b[i] == FullBand(end1, step, i - 1);
      FullBandWidth(end1, step, i - 1);
    }
  }

  lemma FullBandWidth(end1: real, step: real, i: int)
    ensures FullBand(end1, step, i).hi - FullBand(end1, step, i).lo == step
  {
    assert (i + 1) as real * step == i as real * step + step;
  }

  /** When the first band fits in the span, the bands tile `[start, end]`. */
  lemma TilingWhenFirstBandFits(start: real, end: real, step: real)
    requires step > 0.0 && Mod(start, step) != 0.0
    requires FirstEnd(start, end, step) <= end
    ensures DefineRanges(start, end, step).Success?
    ensures var b := DefineRanges(start, end, step).value;
            && b[0].lo == start
            && (forall i :: 0 <= i < |b| - 1 ==> b[i].hi == b[i + 1].lo)
            && b[|b| - 1].hi == end
            && (forall i :: 1 <= i < |b| - 1 ==> b[i].hi - b[i].lo == step)
            && (1 < |b| ==> 0.0 < b[|b| - 1].hi - b[|b| - 1].lo <= step)
            && (1 < |b| ==> (b[|b| - 1].hi - b[|b| - 1].lo == step <==> Mod(end - FirstEnd(start, end, step), step) == 0.0))
  {
    FitsContiguous(start, end, step);
    FitsWidths(start, end, step);
  }

  /** When the first band overshoots `end`, `num_ranges` is negative, no band
      of width `step` is emitted, and a last band, present exactly when
      `end - end1` is not a multiple of `step`, starts at
      `end1 + num_ranges * step`, less than one `step` below `end` and below
      the first band's end: the two bands overlap. */
  lemma {:induction false} OverlapWhenFirstBandOvershoots(start: real, end: real, step: real)
    requires step > 0.0 && Mod(start, step) != 0.0
    requires FirstEnd(start, end, step) > end
    ensures NumRanges(start, end, step) < 0
    ensures DefineRanges(start, end, step).Success?
    ensures var b := DefineRanges(start, end, step).value;
            && (|b| == 2 <==> Mod(end - FirstEnd(start, end, step), step) != 0.0)
            && |b| <= 2
            && (|b| == 2 ==> b[1].lo < b[0].hi && b[1].hi == end)
            && (|b| == 2 ==> b[1].lo == TailStart(start, end, step) && end - step < b[1].lo)
  {
    var end1 := FirstEnd(start, end, step);
    var n := NumRanges(start, end, step);
    var tail := TailStart(start, end, step);
    FloorBracket(end - end1, step);
    ModZeroMeansMultiple(end - end1, step);
    assert n as real * step <= end - end1 < 0.0;
    if 0 <= n {
      MulMonotone(0.0, n as real, step);
      assert false;
    }
    assert tail < end1;
  }

  /** The example `start = 30, end = 60, step = 50`: the bands overlap. */
  lemma OvershootExample()
    ensures DefineRanges(30.0, 60.0, 50.0) == Success([Band(30.0, 100.0), Band(50.0, 60.0)])
  {
    assert (30.0 / 50.0).Floor == 0;
    assert Mod(30.0, 50.0) == 30.0;
    assert (-(30.0 / 50.0)).Floor == -1;
    assert FirstEnd(30.0, 60.0, 50.0) == 100.0;
    assert ((60.0 - 100.0) / 50.0).Floor == -1;
    assert NumRanges(30.0, 60.0, 50.0) == -1;
    assert TailStart(30.0, 60.0, 50.0) == 50.0;
    assert FullBands(100.0, 50.0, -1) == [];
    assert LastBand(30.0, 60.0, 50.0) == [Band(50.0, 60.0)];
    assert Partition(30.0, 60.0, 50.0) == [Band(30.0, 100.0)] + [] + [Band(50.0, 60.0)];
    assert [Band(30.0, 100.0)] + [] + [Band(50.0, 60.0)] == [Band(30.0, 100.0), Band(50.0, 60.0)];
  }

  /** The example `start = 30, end = 35, step = 50`: `num_ranges` is -2, so
      the last band starts at 0, below `start`. */
  lemma TailBelowStartExample()
    ensures DefineRanges(30.0, 35.0, 50.0) == Success([Band(30.0, 100.0), Band(0.0, 35.0)])
  {
    assert (30.0 / 50.0).Floor == 0;
    assert Mod(30.0, 50.0) == 30.0;
    assert (-(30.0 / 50.0)).Floor == -1;
    assert FirstEnd(30.0, 35.0, 50.0) == 100.0;
    assert ((35.0 - 100.0) / 50.0).Floor == -2;
    assert NumRanges(30.0, 35.0, 50.0) == -2;
    assert TailStart(30.0, 35.0, 50.0) == 0.0;
    assert FullBands(100.0, 50.0, -2) == [];
    assert LastBand(30.0, 35.0, 50.0) == [Band(0.0, 35.0)];
    assert Partition(30.0, 35.0, 50.0) == [Band(30.0, 100.0)] + [] + [Band(0.0, 35.0)];
    assert [Band(30.0, 100.0)] + [] + [Band(0.0, 35.0)] == [Band(30.0, 100.0), Band(0.0, 35.0)];
  }
}

=== FILE: colorscale.dfy ===
/** The shared colour scale kept by `measurement_interpolation`, and the
    grid axes it reads from each band table. The limits are updated from
    each band's aggregated values (`df["a"]`), before the spline is fitted;
    the spline and the dense mesh are outside the model. */
module ColorScale {
  import opened Samples
  import opened Coords
  import opened Bands
  import opened Aggregate

  /** `get_meas_coords(df)` on one band table: the x and y axes of the grid
      the spline is fitted on. */
  function BandCoords(band: seq<BandValue>): (r: (seq<real>, seq<real>))
    ensures StrictlyIncreasing(r.0) && StrictlyIncreasing(r.1)
    ensures forall v :: v in r.0 <==> exists k :: 0 <= k < |band| && band[k].x == v
    ensures forall v :: v in r.1 <==> exists k :: 0 <= k < |band| && band[k].y == v
  {
    var xColumn := seq(|band|, k requires 0 <= k < |band| => band[k].x);
    var yColumn := seq(|band|, k requires 0 <= k < |band| => band[k].y);
    forall v
      ensures v in xColumn <==> exists k :: 0 <= k < |band| && band[k].x == v
      ensures v in yColumn <==> exists k :: 0 <= k < |band| && band[k].y == v
    {
      if k :| 0 <= k < |band| && band[k].x == v {
        assert xColumn[k] == v;
      }
      if k :| 0 <= k < |band| && band[k].y == v {
        assert yColumn[k] == v;
      }
    }
    GetMeasCoords(xColumn, yColumn)
  }

  /** The axes of an integrated band hold exactly the x and y values of the
      measurement rows lying strictly inside the band. */
  lemma IntegratedBandCoords(policy: Policy, table: seq<Sample>, b: Band)
    ensures var r := BandCoords(IntegrateBand(policy, table, b));
            && (forall v :: v in r.0 <==> exists s :: s in table && s.x == v && b.lo < s.f < b.hi)
            && (forall v :: v in r.1 <==> exists s :: s in table && s.y == v && b.lo < s.f < b.hi)
  {
    CoordsOfInteriorPositions(IntegrateBand(policy, table, b), table, b);
  }

  /** A table whose positions are those of the interior rows has as axes
      exactly the interior rows' x and y values. */
  lemma {:induction false} CoordsOfInteriorPositions(band: seq<BandValue>, table: seq<Sample>, b: Band)
    requires forall p :: p in Positions(band) <==> exists s :: s in table && PosOf(s) == p && b.lo < s.f < b.hi
    ensures var r := BandCoords(band);
            && (forall v :: v in r.0 <==> exists s :: s in table && s.x == v && b.lo < s.f < b.hi)
            && (forall v :: v in r.1 <==> exists s :: s in table && s.y == v && b.lo < s.f < b.hi)
  {
    var r := BandCoords(band);
    forall v
      ensures v in r.0 <==> exists s :: s in table && s.x == v && b.lo < s.f < b.hi
      ensures v in r.1 <==> exists s :: s in table && s.y == v && b.lo < s.f < b.hi
    {
      XValueOf(band, table, b, v);
      YValueOf(band, table, b, v);
    }
  }

  /** When a table's positions are those of the interior rows, `v` is on its
      x axis exactly when an interior row has that x. */
  lemma {:induction false} XValueOf(band: seq<BandValue>, table: seq<Sample>, b: Band, v: real)
    requires forall p :: p in Positions(band) <==> exists s :: s in table && PosOf(s) == p && b.lo < s.f < b.hi
    ensures (exists k :: 0 <= k < |band| && band[k].x == v) <==> exists s :: s in table && s.x == v && b.lo < s.f < b.hi
  {
    var ps := Positions(band);
    if k :| 0 <= k < |band| && band[k].x == v {
      assert ps[k] in ps;
      var s :| s in table && PosOf(s) == ps[k] && b.lo < s.f < b.hi;
      assert s.x == v;
    }
    if s :| s in table && s.x == v && b.lo < s.f < b.hi {
      assert PosOf(s) in ps;
      var k :| 0 <= k < |ps| && ps[k] == PosOf(s);
      assert band[k].x == v;
    }
  }

  /** The same for the y axis. */
  lemma {:induction false} YValueOf(band: seq<BandValue>, table: seq<Sample>, b: Band, v: real)
    requires forall p :: p in Positions(band) <==> exists s :: s in table && PosOf(s) == p && b.lo < s.f < b.hi
    ensures (exists k :: 0 <= k < |band| && band[k].y == v) <==> exists s :: s in table && s.y == v && b.lo < s.f < b.hi
  {
    var ps := Positions(band);
    if k :| 0 <= k < |band| && band[k].y == v {
      assert ps[k] in ps;
      var s :| s in table && PosOf(s) == ps[k] && b.lo < s.f < b.hi;
      assert s.y == v;
    }
    if s :| s in table && s.y == v && b.lo < s.f < b.hi {
      assert PosOf(s) in ps;
      var k :| 0 <= k < |ps| && ps[k] == PosOf(s);
      assert band[k].y == v;
    }
  }

  /** `color_min` starts at `np.inf`. */
  datatype Limit = Finite(v: real) | PosInf

  /** `df["a"].min()` of a non-empty band table. */
  function MinValue(band: seq<BandValue>): (m: real)
    requires |band| > 0
    ensures forall k :: 0 <= k < |band| ==> m <= band[k].a
    ensures exists k :: 0 <= k < |band| && band[k].a == m
  {
    if |band| == 1 then band[0].a
    else
      var rest := MinValue(band[1..]);
      assert forall k :: 1 <= k < |band| ==> band[k] == band[1..][k - 1];
      if band[0].a <= rest then band[0].a else rest
  }

  /** `df["a"].max()` of a non-empty band table. */
  function MaxValue(band: seq<BandValue>): (m: real)
    requires |band| > 0
    ensures forall k :: 0 <= k < |band| ==> band[k].a <= m
    ensures exists k :: 0 <= k < |band| && band[k].a == m
  {
    if |band| == 1 then band[0].a
    else
      var rest := MaxValue(band[1..]);
      assert forall k :: 1 <= k < |band| ==> band[k] == band[1..][k - 1];
      if band[0].a >= rest then band[0].a else rest
  }

  /** The running limits over all bands. `color_max` starts at 0, so it is
      the largest value or 0, whichever is larger; `color_min` is the
      smallest value, or stays infinite when no band has a row (the minimum
      of an empty column is NaN, and comparisons with NaN are false). */
  method MeasurementColorScale(bands: seq<seq<BandValue>>) returns (colorMax: real, colorMin: Limit)
    ensures 0.0 <= colorMax
    ensures forall i, k :: 0 <= i < |bands| && 0 <= k < |bands[i]| ==> bands[i][k].a <= colorMax
    ensures colorMax == 0.0 || exists i, k :: 0 <= i < |bands| && 0 <= k < |bands[i]| && bands[i][k].a == colorMax
    ensures colorMin.PosInf? <==> forall i :: 0 <= i < |bands| ==> |bands[i]| == 0
    ensures colorMin.Finite? ==> forall i, k :: 0 <= i < |bands| && 0 <= k < |bands[i]| ==> colorMin.v <= bands[i][k].a
    ensures colorMin.Finite? ==> exists i, k :: 0 <= i < |bands| && 0 <= k < |bands[i]| && bands[i][k].a == colorMin.v
  {
    colorMax := 0.0;
    colorMin := PosInf;
    for n := 0 to |bands|
      invariant 0.0 <= colorMax
      invariant forall i, k :: 0 <= i < n && 0 <= k < |bands[i]| ==> bands[i][k].a <= colorMax
      invariant colorMax == 0.0 || exists i, k :: 0 <= i < n && 0 <= k < |bands[i]| && bands[i][k].a == colorMax
      invariant colorMin.PosInf? <==> forall i :: 0 <= i < n ==> |bands[i]| == 0
      invariant colorMin.Finite? ==> forall i, k :: 0 <= i < n && 0 <= k < |bands[i]| ==> colorMin.v <= bands[i][k].a
      invariant colorMin.Finite? ==> exists i, k :: 0 <= i < n && 0 <= k < |bands[i]| && bands[i][k].a == colorMin.v
    {
      var band := bands[n];
      if |band| > 0 {
        var low := MinValue(band);
        if colorMin.PosInf? || low < colorMin.v {
          colorMin := Finite(low);
        }
        var high := MaxValue(band);
        if high > colorMax {
          colorMax := high;
        }
      }
    }
  }
}

=== FILE: coords.dfy ===
/** `get_meas_coords`: the distinct x and y values of a table, each sorted
    ascending (`sorted(series.unique())`). */
module Coords {
  import opened Samples

  predicate StrictlyIncreasing(s: seq<real>) {
    forall i, j :: 0 <= i < j < |s| ==> s[i] < s[j]
  }

  function Elements(s: seq<real>): set<real> {
    set v | v in s
  }

  /** Adds `v` to a strictly increasing sequence, keeping it so. */
  function Insert(s: seq<real>, v: real): (r: seq<real>)
    requires StrictlyIncreasing(s)
    ensures StrictlyIncreasing(r)
    ensures Elements(r) == Elements(s) + {v}
  {
    if |s| == 0 then [v]
    else if v < s[0] then
      ElementsCons(v, s);
      [v] + s
    else if v == s[0] then s
    else
      var rest := Insert(s[1..], v);
      ElementsCons(s[0], s[1..]);
      ElementsCons(s[0], rest);
      assert s == [s[0]] + s[1..];
      HeadBelowInsert(s, v, rest);
      ConsIncreasing(s[0], rest);
      [s[0]] + rest
  }

  lemma HeadBelowInsert(s: seq<real>, v: real, rest: seq<real>)
    requires StrictlyIncreasing(s) && 0 < |s| && s[0] < v
    requires Elements(rest) == Elements(s[1..]) + {v}
    ensures forall w :: w in rest ==> s[0] < w
  {
    forall w | w in rest
      ensures s[0] < w
    {
      assert w in Elements(rest);
      if w != v {
        var i :| 0 <= i < |s[1..]| && s[1..][i] == w;
        assert s[i + 1] == w;
      }
    }
  }

  lemma ConsIncreasing(a: real, r: seq<real>)
    requires StrictlyIncreasing(r)
    requires forall w :: w in r ==> a < w
    ensures StrictlyIncreasing([a] + r)
  {
    var t := [a] + r;
    forall i, j | 0 <= i < j < |t|
      ensures t[i] < t[j]
    {
      assert t[j] == r[j - 1] && r[j - 1] in r;
      if 0 < i {
        assert t[i] == r[i - 1];
      }
    }
  }

  lemma ElementsCons(v: real, s: seq<real>)
    ensures Elements([v] + s) == {v} + Elements(s)
  {
    assert forall w :: w in [v] + s <==> w == v || w in s;
  }

  /** The distinct values of `xs` in ascending order. */
  function SortedDistinct(xs: seq<real>): (r: seq<real>)
    ensures StrictlyIncreasing(r)
    ensures Elements(r) == Elements(xs)
  {
    if |xs| == 0 then []
    else
      assert Elements(xs) == Elements(xs[..|xs| - 1]) + {xs[|xs| - 1]} by {
        assert xs == xs[..|xs| - 1] + [xs[|xs| - 1]];
      }
      Insert(SortedDistinct(xs[..|xs| - 1]), xs[|xs| - 1])
  }

  /** A strictly increasing sequence is determined by its elements: so the
      result of `SortedDistinct` is the only sorted, duplicate-free listing
      of the values. */
  lemma {:induction false} StrictlyIncreasingUnique(a: seq<real>, b: seq<real>)
    requires StrictlyIncreasing(a) && StrictlyIncreasing(b)
    requires Elements(a) == Elements(b)
    ensures a == b
    decreases |a|
  {
    if |a| != 0 {
      assert a[0] in Elements(a);
    }
    if |b| != 0 {
      assert b[0] in Elements(b);
    }
    if |a| != 0 && |b| != 0 {
      assert a[0] == b[0] by {
        assert a[0] in Elements(b) && b[0] in Elements(a);
      }
      assert Elements(a[1..]) == Elements(b[1..]) by {
        assert Elements(a) == {a[0]} + Elements(a[1..]);
        assert Elements(b) == {b[0]} + Elements(b[1..]);
        assert a[0] !in Elements(a[1..]) && b[0] !in Elements(b[1..]);
      }
      StrictlyIncreasingUnique(a[1..], b[1..]);
      assert a == [a[0]] + a[1..] && b == [b[0]] + b[1..];
    }
  }

  function Xs(table: seq<Sample>): (r: seq<real>)
    ensures |r| == |table| && forall i :: 0 <= i < |table| ==> r[i] == table[i].x
  {
    seq(|table|, i requires 0 <= i < |table| => table[i].x)
  }

  function Ys(table: seq<Sample>): (r: seq<real>)
    ensures |r| == |table| && forall i :: 0 <= i < |table| ==> r[i] == table[i].y
  {
    seq(|table|, i requires 0 <= i < |table| => table[i].y)
  }

  /** `get_meas_coords(df)`, given the table's `x` and `y` columns (the
      only ones it reads): strictly increasing x and y values, holding
      exactly the values that occur in each column. */
  function GetMeasCoords(xColumn: seq<real>, yColumn: seq<real>): (r: (seq<real>, seq<real>))
    ensures StrictlyIncreasing(r.0) && StrictlyIncreasing(r.1)
    ensures forall v :: v in r.0 <==> v in xColumn
    ensures forall v :: v in r.1 <==> v in yColumn
  {
    var xs := SortedDistinct(xColumn);
    var ys := SortedDistinct(yColumn);
    assert forall v :: v in xs <==> v in Elements(xColumn);
    assert forall v :: v in ys <==> v in Elements(yColumn);
    (xs, ys)
  }
}

=== FILE: labels.dfy ===
/** Human-readable band labels (`define_unit`, `define_plot_titles`). The
    `:.1f` float formatting is the parameter `fmt`. */
module Labels {
  import opened Outcomes
  import opened Slicing
  import opened Bands

  datatype Unit = Hz | KHz | MHz | GHz

  /** The frequencies shown in unit `u`: one half-open range per unit. */
  predicate InRange(u: Unit, n: real) {
    match u
    case Hz => n < 1000.0
    case KHz => 1000.0 <= n < 1000000.0
    case MHz => 1000000.0 <= n < 1000000000.0
    case GHz => 1000000000.0 <= n
  }

  /** How many hertz one `u` is. */
  function Power(u: Unit): real {
    match u
    case Hz => 1.0
    case KHz => 1000.0
    case MHz => 1000000.0
    case GHz => 1000000000.0
  }

  function Symbol(u: Unit): string {
    match u
    case Hz => "Hz"
    case KHz => "kHz"
    case MHz => "MHz"
    case GHz => "GHz"
  }

  /** The ranges cover every frequency exactly once, and in every unit but
      the outermost two the shown number lies in `[1, 1000)`. */
  lemma ExactlyOneUnit(n: real)
    ensures InRange(Hz, n) || InRange(KHz, n) || InRange(MHz, n) || InRange(GHz, n)
    ensures forall u, v :: InRange(u, n) && InRange(v, n) ==> u == v
    ensures forall u :: InRange(u, n) && u != Hz ==> 1.0 <= n / Power(u)
    ensures forall u :: InRange(u, n) && u != GHz ==> n / Power(u) < 1000.0
  {
  }

  /** `define_unit(number)`: the number scaled by the unit its magnitude
      falls in, formatted, then a space and the unit's symbol. */
  function DefineUnit(fmt: real -> string, n: real): (shown: string)
    ensures forall u :: InRange(u, n) ==> shown == fmt(n / Power(u)) + " " + Symbol(u)
  {
    if n >= 1000000000.0 then fmt(n / 1000000000.0) + " GHz"
    else if n >= 1000000.0 then fmt(n / 1000000.0) + " MHz"
    else if n >= 1000.0 then fmt(n / 1000.0) + " kHz"
    else fmt(n) + " Hz"
  }

  /** Reads the unit back from the end of a label. */
  function UnitOfLabel(text: string): Option<Unit> {
    if EndsWith(text, " GHz") then Some(GHz)
    else if EndsWith(text, " MHz") then Some(MHz)
    else if EndsWith(text, " kHz") then Some(KHz)
    else if EndsWith(text, " Hz") then Some(Hz)
    else None
  }

  /** One differing character rules a suffix out. */
  lemma Mismatch(text: string, suffix: string, i: nat)
    requires i < |suffix|
    requires |suffix| <= |text| ==> text[|text| - |suffix| + i] != suffix[i]
    ensures !EndsWith(text, suffix)
  {
  }

  /** Whatever precedes the space and the symbol, the unit read back is `u`. */
  lemma UnitOfSuffixed(prefix: string, u: Unit)
    ensures UnitOfLabel(prefix + " " + Symbol(u)) == Some(u)
  {
    var text := prefix + " " + Symbol(u);
    var k := |text|;
    match u {
      case GHz =>
        assert text[|prefix|..] == " GHz";
      case MHz =>
        assert text[|prefix|..] == " MHz";
        assert text[k - 3] == 'M';
        Mismatch(text, " GHz", 1);
      case KHz =>
        assert text[|prefix|..] == " kHz";
        assert text[k - 3] == 'k';
        Mismatch(text, " GHz", 1);
        Mismatch(text, " MHz", 1);
      case Hz =>
        assert text[|prefix|..] == " Hz";
        assert text[k - 3] == ' ';
        Mismatch(text, " GHz", 1);
        Mismatch(text, " MHz", 1);
        Mismatch(text, " kHz", 1);
    }
  }

  /** The unit a label was built with can be read back from its suffix,
      whatever text `fmt` produced. */
  lemma UnitRecoveredFromLabel(fmt: real -> string, n: real, u: Unit)
    requires InRange(u, n)
    ensures UnitOfLabel(DefineUnit(fmt, n)) == Some(u)
  {
    UnitOfSuffixed(fmt(n / Power(u)), u);
  }

  /** The title of one band: `"<start label> - <end label>"`. */
  function Title(fmt: real -> string, b: Band): string {
    DefineUnit(fmt, b.lo) + " - " + DefineUnit(fmt, b.hi)
  }

  /** `define_plot_titles(ranges)`: one title per band, in band order. The
      end label closes each title, so its unit can be read back from it. */
  method DefinePlotTitles(fmt: real -> string, ranges: seq<Band>) returns (titles: seq<string>)
    ensures |titles| == |ranges|
    ensures forall i :: 0 <= i < |ranges| ==> titles[i] == Title(fmt, ranges[i])
    ensures forall i, u :: 0 <= i < |ranges| && InRange(u, ranges[i].hi) ==> UnitOfLabel(titles[i]) == Some(u)
  {
    titles := [];
    for k := 0 to |ranges|
      invariant |titles| == k
      invariant forall i :: 0 <= i < k ==> titles[i] == Title(fmt, ranges[i])
    {
      titles := titles + [Title(fmt, ranges[k])];
    }
    forall i, u | 0 <= i < |ranges| && InRange(u, ranges[i].hi)
      ensures UnitOfLabel(titles[i]) == Some(u)
    {
      var prefix := DefineUnit(fmt, ranges[i].lo) + " - " + fmt(ranges[i].hi / Power(u));
      UnitOfSuffixed(prefix, u);
      assert titles[i] == prefix + " " + Symbol(u);
    }
  }
}

=== FILE: loader.dfy ===
/** The point-cloud loader (`load_measurement`): the position is sliced out
    of each `.csv` file name and attached to every row of that file. Reading
    the CSV text and `float()` are outside the model: a file arrives as its
    name and its parsed rows, and `parse` stands for `float()`, `None`
    meaning that it raises `ValueError`. */
module Loader {
  import opened Outcomes
  import opened Slicing
  import opened Samples

  /** A directory entry as `os.listdir` yields it, with the rows pandas would read from it. */
  datatype CsvFile = CsvFile(name: string, rows: seq<Row>)

  /** `float()` rejected a coordinate text cut from the named file. */
  datatype LoadError = BadCoordinate(file: string, text: string)

  predicate IsCsv(file: CsvFile) {
    EndsWith(file.name, ".csv")
  }

  /** The x and y texts: `name[1:floor]` and `name[floor + 2:-4]`, where
      `floor` is the index of the first `_` (or -1 when there is none). */
  function CoordinateTexts(name: string): (string, string) {
    var floor := Find(name, '_');
    (Slice(name, 1, floor), Slice(name, floor + 2, -4))
  }

  /** A name of the shape `x<X>_y<Y>.csv` with no `_` in `X` gives back
      exactly `X` and `Y`; the first character and the one after the `_`
      are skipped without being looked at. */
  lemma CoordinateTextsRoundTrip(c: char, x: string, d: char, y: string)
    requires c != '_' && '_' !in x
    ensures CoordinateTexts([c] + x + ['_', d] + y + ".csv") == (x, y)
  {
    var name := [c] + x + ['_', d] + y + ".csv";
    assert name[1..|x| + 1] == x;
    assert name[|x| + 1] == '_';
    assert name[..|x| + 1] == [c] + x;
    assert name[|x| + 3..|name| - 4] == y;
  }

  /** A leading `_` is found by `find` even though the slices skip that
      character: the x text is then empty. */
  lemma LeadingUnderscore(x: string, d: char, y: string)
    ensures CoordinateTexts(['_'] + x + ['_', d] + y + ".csv").0 == []
  {
  }

  /** `df["x"] = x; df["y"] = y` on the rows of one file. */
  function Tag(x: real, y: real, rows: seq<Row>): (r: seq<Sample>)
    ensures |r| == |rows|
    ensures forall i :: 0 <= i < |rows| ==> r[i] == Sample(x, y, rows[i].f, rows[i].a)
  {
    seq(|rows|, i requires 0 <= i < |rows| => Sample(x, y, rows[i].f, rows[i].a))
  }

  /** Both coordinate texts of a file name are accepted by `parse`. */
  predicate NameParses(parse: string -> Option<real>, name: string) {
    parse(CoordinateTexts(name).0).Some? && parse(CoordinateTexts(name).1).Some?
  }

  /** The position a `.csv` file's rows are tagged with. */
  function PositionOf(parse: string -> Option<real>, name: string): Pos
    requires NameParses(parse, name)
  {
    Pos(parse(CoordinateTexts(name).0).value, parse(CoordinateTexts(name).1).value)
  }

  /** Number of rows in the `.csv` files among `files`. */
  function CsvRowCount(files: seq<CsvFile>): nat {
    if |files| == 0 then 0
    else (if IsCsv(files[0]) then |files[0].rows| else 0) + CsvRowCount(files[1..])
  }

  /** The `.csv` rows before entry `k`: the head's, then those before entry `k - 1` of the rest. */
  lemma CsvRowCountPrefix(files: seq<CsvFile>, k: int)
    requires 0 < k <= |files|
    ensures CsvRowCount(files[..k]) == (if IsCsv(files[0]) then |files[0].rows| else 0) + CsvRowCount(files[1..][..k - 1])
  {
    assert files[..k][1..] == files[1..][..k - 1];
  }

  /** Every `.csv` entry's name parses. */
  predicate AllNamesParse(parse: string -> Option<real>, files: seq<CsvFile>) {
    forall k :: 0 <= k < |files| && IsCsv(files[k]) ==> NameParses(parse, files[k].name)
  }

  /** Entry `k` is the first `.csv` entry in listing order whose name does not parse. */
  predicate FirstBadName(parse: string -> Option<real>, files: seq<CsvFile>, k: int) {
    && 0 <= k < |files|
    && IsCsv(files[k])
    && !NameParses(parse, files[k].name)
    && forall j :: 0 <= j < k && IsCsv(files[j]) ==> NameParses(parse, files[j].name)
  }

  /** The coordinate text `float()` raises on: x is converted first. */
  function RejectedText(parse: string -> Option<real>, name: string): string {
    var texts := CoordinateTexts(name);
    if parse(texts.0).None? then texts.0 else texts.1
  }

  /** `load_measurement(folder)`, given the directory listing in `os.listdir`
      order: non-`.csv` entries are skipped; the first `.csv` whose x or y
      text `float()` rejects aborts the load; otherwise every file's rows,
      tagged with the file's position, are concatenated in listing order. */
  function LoadMeasurement(parse: string -> Option<real>, files: seq<CsvFile>): (r: Result<seq<Sample>, LoadError>)
    ensures r.Success? <==> AllNamesParse(parse, files)
    ensures r.Failure? ==>
      exists k :: FirstBadName(parse, files, k) && r.error == BadCoordinate(files[k].name, RejectedText(parse, files[k].name))
    decreases |files|
  {
    if |files| == 0 then Success([])
    else
      assert forall k :: 1 <= k < |files| ==> files[k] == files[1..][k - 1];
      if !IsCsv(files[0]) then
        var rest := LoadMeasurement(parse, files[1..]);
        if rest.Failure? then ShiftFirstBadName(parse, files, rest.error); rest else rest
      else
        var texts := CoordinateTexts(files[0].name);
        var x := parse(texts.0);
        var y := parse(texts.1);
        if x.None? then Failure(BadCoordinate(files[0].name, texts.0))
        else if y.None? then Failure(BadCoordinate(files[0].name, texts.1))
        else
          var rest := LoadMeasurement(parse, files[1..]);
          if rest.Failure? then ShiftFirstBadName(parse, files, rest.error); rest
          else Success(Tag(x.value, y.value, files[0].rows) + rest.value)
  }

  /** A failure of the rest of the listing, behind a head entry that loads,
      is still the first bad `.csv` entry of the whole listing. */
  lemma {:induction false} ShiftFirstBadName(parse: string -> Option<real>, files: seq<CsvFile>, e: LoadError)
    requires |files| > 0 && (IsCsv(files[0]) ==> NameParses(parse, files[0].name))
    requires exists k :: FirstBadName(parse, files[1..], k) && e == BadCoordinate(files[1..][k].name, RejectedText(parse, files[1..][k].name))
    ensures exists k :: FirstBadName(parse, files, k) && e == BadCoordinate(files[k].name, RejectedText(parse, files[k].name))
  {
    var k :| FirstBadName(parse, files[1..], k) && e == BadCoordinate(files[1..][k].name, RejectedText(parse, files[1..][k].name));
    FirstBadNameShifts(parse, files, k);
  }

  lemma {:induction false} FirstBadNameShifts(parse: string -> Option<real>, files: seq<CsvFile>, k: int)
    requires |files| > 0 && (IsCsv(files[0]) ==> NameParses(parse, files[0].name))
    requires FirstBadName(parse, files[1..], k)
    ensures FirstBadName(parse, files, k + 1) && files[k + 1] == files[1..][k]
  {
    assert files[k + 1] == files[1..][k];
    PrefixShift(parse, files, k);
  }

  lemma {:induction false} PrefixShift(parse: string -> Option<real>, files: seq<CsvFile>, k: int)
    requires |files| > 0 && (IsCsv(files[0]) ==> NameParses(parse, files[0].name))
    requires 0 <= k < |files| - 1
    requires forall j :: 0 <= j < k && IsCsv(files[1..][j]) ==> NameParses(parse, files[1..][j].name)
    ensures forall j :: 0 <= j < k + 1 && IsCsv(files[j]) ==> NameParses(parse, files[j].name)
  {
    forall j | 0 < j < k + 1
      ensures files[j] == files[1..][j - 1]
    {
    }
  }

  /** The loaded table has one row per data row of the `.csv` files. */
  lemma {:induction false} LoadedRowCount(parse: string -> Option<real>, files: seq<CsvFile>)
    requires LoadMeasurement(parse, files).Success?
    ensures |LoadMeasurement(parse, files).value| == CsvRowCount(files)
    decreases |files|
  {
    if |files| > 0 {
      LoadedRowCount(parse, files[1..]);
    }
  }

  /** A `.csv` file's data row, tagged with the position parsed from its name. */
  predicate FromFile(parse: string -> Option<real>, files: seq<CsvFile>, s: Sample) {
    exists k, i :: 0 <= k < |files| && IsCsv(files[k]) && NameParses(parse, files[k].name)
      && 0 <= i < |files[k].rows| && s == TaggedRow(parse, files[k], i)
  }

  function TaggedRow(parse: string -> Option<real>, file: CsvFile, i: nat): Sample
    requires NameParses(parse, file.name) && i < |file.rows|
  {
    var p := PositionOf(parse, file.name);
    Sample(p.x, p.y, file.rows[i].f, file.rows[i].a)
  }

  /** Every row of the table is a `.csv` file's row tagged with that file's
      position, and every such row is in the table. */
  lemma {:induction false} LoadedRowsAreTaggedFileRows(parse: string -> Option<real>, files: seq<CsvFile>)
    requires LoadMeasurement(parse, files).Success?
    ensures forall s :: s in LoadMeasurement(parse, files).value <==> FromFile(parse, files, s)
    decreases |files|
  {
    if |files| > 0 {
      LoadHead(parse, files);
      LoadedRowsAreTaggedFileRows(parse, files[1..]);
      FromFileCons(parse, files);
      if IsCsv(files[0]) {
        HeadRows(parse, files[0]);
      }
    }
  }

  /** The table of a listing whose `.csv` names all parse: each `.csv`
      file's tagged rows, in listing order. */
  function AllRows(parse: string -> Option<real>, files: seq<CsvFile>): seq<Sample>
    requires AllNamesParse(parse, files)
    decreases |files|
  {
    if |files| == 0 then []
    else
      NamesParseInTail(parse, files);
      (if IsCsv(files[0]) then FileRows(parse, files[0]) else []) + AllRows(parse, files[1..])
  }

  lemma NamesParseInTail(parse: string -> Option<real>, files: seq<CsvFile>)
    requires 0 < |files| && AllNamesParse(parse, files)
    ensures AllNamesParse(parse, files[1..])
  {
    forall k | 0 <= k < |files[1..]| && IsCsv(files[1..][k])
      ensures NameParses(parse, files[1..][k].name)
    {
      assert files[1..][k] == files[k + 1];
    }
  }

  /** A load that succeeds yields exactly `AllRows`. */
  lemma {:induction false} LoadedAllRows(parse: string -> Option<real>, files: seq<CsvFile>)
    requires AllNamesParse(parse, files)
    ensures LoadMeasurement(parse, files) == Success(AllRows(parse, files))
    decreases |files|
  {
    if |files| > 0 {
      LoadHead(parse, files);
      NamesParseInTail(parse, files);
      LoadedAllRows(parse, files[1..]);
      var r := LoadMeasurement(parse, files);
      var head := if IsCsv(files[0]) then FileRows(parse, files[0]) else [];
      assert r.value == head + AllRows(parse, files[1..]);
      assert AllRows(parse, files) == head + AllRows(parse, files[1..]);
      assert r == Success(r.value);
    }
  }

  /** Row `i` of the `k`-th listing entry, a `.csv` file, sits in the table
      after the rows of all earlier `.csv` files: concatenation keeps listing
      order and each file's row order. */
  lemma LoadedRowAt(parse: string -> Option<real>, files: seq<CsvFile>, k: int, i: int)
    requires LoadMeasurement(parse, files).Success?
    requires 0 <= k < |files| && IsCsv(files[k]) && 0 <= i < |files[k].rows|
    ensures NameParses(parse, files[k].name)
    ensures CsvRowCount(files[..k]) + i < |LoadMeasurement(parse, files).value|
    ensures LoadMeasurement(parse, files).value[CsvRowCount(files[..k]) + i] == TaggedRow(parse, files[k], i)
  {
    LoadedAllRows(parse, files);
    AllRowsAt(parse, files, k, i);
  }

  lemma {:induction false} AllRowsAt(parse: string -> Option<real>, files: seq<CsvFile>, k: int, i: int)
    requires AllNamesParse(parse, files)
    requires 0 <= k < |files| && IsCsv(files[k]) && 0 <= i < |files[k].rows|
    ensures NameParses(parse, files[k].name)
    ensures CsvRowCount(files[..k]) + i < |AllRows(parse, files)|
    ensures AllRows(parse, files)[CsvRowCount(files[..k]) + i] == TaggedRow(parse, files[k], i)
    decreases |files|
  {
    if k == 0 {
      AllRowsHead(parse, files, i);
    } else {
      var tail := files[1..];
      NamesParseInTail(parse, files);
      assert tail[k - 1] == files[k];
      AllRowsAt(parse, tail, k - 1, i);
      var m := CsvRowCount(tail[..k - 1]) + i;
      CsvRowCountPrefix(files, k);
      AllRowsRest(parse, files, m);
      var skip := if IsCsv(files[0]) then |files[0].rows| else 0;
      assert CsvRowCount(files[..k]) + i == skip + m;
    }
  }

  lemma AllRowsHead(parse: string -> Option<real>, files: seq<CsvFile>, i: int)
    requires AllNamesParse(parse, files)
    requires 0 < |files| && IsCsv(files[0]) && 0 <= i < |files[0].rows|
    ensures NameParses(parse, files[0].name)
    ensures CsvRowCount(files[..0]) + i < |AllRows(parse, files)|
    ensures AllRows(parse, files)[CsvRowCount(files[..0]) + i] == TaggedRow(parse, files[0], i)
  {
    assert files[..0] == [];
    var head := FileRows(parse, files[0]);
    assert head[i] == TaggedRow(parse, files[0], i);
  }

  lemma AllRowsRest(parse: string -> Option<real>, files: seq<CsvFile>, m: int)
    requires AllNamesParse(parse, files) && 0 < |files|
    requires AllNamesParse(parse, files[1..]) && 0 <= m < |AllRows(parse, files[1..])|
    ensures var skip := if IsCsv(files[0]) then |files[0].rows| else 0;
            skip + m < |AllRows(parse, files)| && AllRows(parse, files)[skip + m] == AllRows(parse, files[1..])[m]
  {
    var head := if IsCsv(files[0]) then FileRows(parse, files[0]) else [];
    IndexAfter(AllRows(parse, files), head, AllRows(parse, files[1..]), m);
  }

  lemma IndexAfter<T>(all: seq<T>, head: seq<T>, rest: seq<T>, m: int)
    requires all == head + rest && 0 <= m < |rest|
    ensures |head| + m < |all| && all[|head| + m] == rest[m]
  {
  }

  /** The head file contributes its tagged rows (if it is a `.csv`), then the rest follows. */
  lemma LoadHead(parse: string -> Option<real>, files: seq<CsvFile>)
    requires |files| > 0 && LoadMeasurement(parse, files).Success?
    ensures LoadMeasurement(parse, files[1..]).Success?
    ensures IsCsv(files[0]) ==> NameParses(parse, files[0].name)
    ensures IsCsv(files[0]) ==>
              LoadMeasurement(parse, files).value == FileRows(parse, files[0]) + LoadMeasurement(parse, files[1..]).value
    ensures !IsCsv(files[0]) ==> LoadMeasurement(parse, files).value == LoadMeasurement(parse, files[1..]).value
  {
  }

  /** The rows of one `.csv` file, tagged with the position its name gives. */
  function FileRows(parse: string -> Option<real>, file: CsvFile): (r: seq<Sample>)
    requires NameParses(parse, file.name)
    ensures |r| == |file.rows|
  {
    var p := PositionOf(parse, file.name);
    Tag(p.x, p.y, file.rows)
  }

  lemma HeadRows(parse: string -> Option<real>, file: CsvFile)
    requires NameParses(parse, file.name)
    ensures forall s :: s in FileRows(parse, file) <==> exists i :: 0 <= i < |file.rows| && s == TaggedRow(parse, file, i)
  {
    var r := FileRows(parse, file);
    forall s | s in r
      ensures exists i :: 0 <= i < |file.rows| && s == TaggedRow(parse, file, i)
    {
      var i :| 0 <= i < |r| && r[i] == s;
      assert s == TaggedRow(parse, file, i);
    }
    forall i | 0 <= i < |file.rows|
      ensures TaggedRow(parse, file, i) in r
    {
      assert r[i] == TaggedRow(parse, file, i);
    }
  }

  /** A row comes from some file exactly when it comes from the head file or from the rest. */
  lemma {:induction false} FromFileCons(parse: string -> Option<real>, files: seq<CsvFile>)
    requires |files| > 0
    ensures forall s :: FromFile(parse, files, s) <==>
              (IsCsv(files[0]) && NameParses(parse, files[0].name)
                 && exists i :: 0 <= i < |files[0].rows| && s == TaggedRow(parse, files[0], i))
              || FromFile(parse, files[1..], s)
  {
    forall s | FromFile(parse, files[1..], s)
      ensures FromFile(parse, files, s)
    {
      FromTailFile(parse, files, s);
    }
    forall s | FromFile(parse, files, s)
      ensures (IsCsv(files[0]) && NameParses(parse, files[0].name)
                 && exists i :: 0 <= i < |files[0].rows| && s == TaggedRow(parse, files[0], i))
              || FromFile(parse, files[1..], s)
    {
      FromHeadOrTailFile(parse, files, s);
    }
  }

  lemma {:induction false} FromTailFile(parse: string -> Option<real>, files: seq<CsvFile>, s: Sample)
    requires |files| > 0 && FromFile(parse, files[1..], s)
    ensures FromFile(parse, files, s)
  {
    var tail := files[1..];
    var k, i :| 0 <= k < |tail| && IsCsv(tail[k]) && NameParses(parse, tail[k].name)
      && 0 <= i < |tail[k].rows| && s == TaggedRow(parse, tail[k], i);
    assert tail[k] == files[k + 1];
  }

  lemma {:induction false} FromHeadOrTailFile(parse: string -> Option<real>, files: seq<CsvFile>, s: Sample)
    requires |files| > 0 && FromFile(parse, files, s)
    ensures (IsCsv(files[0]) && NameParses(parse, files[0].name)
               && exists i :: 0 <= i < |files[0].rows| && s == TaggedRow(parse, files[0], i))
            || FromFile(parse, files[1..], s)
  {
    var k, i :| 0 <= k < |files| && IsCsv(files[k]) && NameParses(parse, files[k].name)
      && 0 <= i < |files[k].rows| && s == TaggedRow(parse, files[k], i);
    if k > 0 {
      assert files[k] == files[1..][k - 1];
    }
  }

  /** A single file named `x<X>_y<Y>.csv` loads as its own rows, every one
      tagged with the parsed `X` and `Y`. */
  lemma SingleFileTagging(parse: string -> Option<real>, x: string, y: string, rows: seq<Row>)
    requires '_' !in x && parse(x).Some? && parse(y).Some?
    ensures LoadMeasurement(parse, [CsvFile("x" + x + "_y" + y + ".csv", rows)])
            == Success(Tag(parse(x).value, parse(y).value, rows))
  {
    var name := "x" + x + "_y" + y + ".csv";
    assert name == ['x'] + x + ['_', 'y'] + y + ".csv";
    CoordinateTextsRoundTrip('x', x, 'y', y);
    assert EndsWith(name, ".csv") by {
      assert name[|name| - 4..] == ".csv";
    }
    assert [CsvFile(name, rows)][1..] == [];
    assert Tag(parse(x).value, parse(y).value, rows) + [] == Tag(parse(x).value, parse(y).value, rows);
  }

  /** `str.split(sep)`: the pieces between separators. */
  function Split(s: string, sep: char): (r: seq<string>)
    ensures 1 <= |r|
    ensures forall i :: 0 <= i < |r| ==> sep !in r[i]
    decreases |s|
  {
    var k := Find(s, sep);
    if k < 0 then [s] else [s[..k]] + Split(s[k + 1..], sep)
  }

  /** A line whose first separator follows `a` splits into `a`, then the rest split. */
  lemma SplitOnFirst(a: string, sep: char, b: string)
    requires sep !in a
    ensures Split(a + [sep] + b, sep) == [a] + Split(b, sep)
  {
    var line := a + [sep] + b;
    assert line[|a|] == sep;
    assert forall i :: 0 <= i < |a| ==> line[i] == a[i];
    FindFirst(line, sep, |a|);
    assert line[..|a|] == a;
    assert line[|a| + 1..] == b;
  }

  /** `sep.join(parts)`. */
  function Join(parts: seq<string>, sep: char): string
    requires 1 <= |parts|
  {
    if |parts| == 1 then parts[0] else parts[0] + [sep] + Join(parts[1..], sep)
  }

  /** A line `savetxt` writes by joining fields that contain no separator
      splits back into exactly those fields. */
  lemma {:induction false} SplitJoin(parts: seq<string>, sep: char)
    requires 1 <= |parts|
    requires forall i :: 0 <= i < |parts| ==> sep !in parts[i]
    ensures Split(Join(parts, sep), sep) == parts
    decreases |parts|
  {
    if |parts| > 1 {
      var tail := parts[1..];
      assert forall i :: 0 <= i < |tail| ==> tail[i] == parts[i + 1];
      SplitOnFirst(parts[0], sep, Join(tail, sep));
      SplitJoin(tail, sep);
      assert parts == [parts[0]] + tail;
    }
  }

  /** The column names pandas takes from a CSV header line. */
  function HeaderColumns(line: string): seq<string> {
    Split(line, ',')
  }

  /** `rename(columns={"# f[Hz]": "f", " a[dB]": "a"})` on one column name. */
  function RenameColumn(name: string): string {
    if name == "# f[Hz]" then "f" else if name == " a[dB]" then "a" else name
  }
}

=== FILE: outcomes.dfy ===
/** Success/failure results. A Python exception, or a `sys.exit()` after a
    logged error, becomes a `Failure` carrying the reason. */
module Outcomes {

  datatype Option<+T> = None | Some(value: T)

  datatype Result<+T, +E> = Success(value: T) | Failure(error: E)
}

=== FILE: pipeline.dfy ===
/** How the acquisition side and the processing side fit together: the file
    `measure.py` writes for a stop is read back by `load_measurement` at that
    stop's position, with the column names `save_data` writes renamed to
    `f` and `a`. */
module Pipeline {
  import opened Outcomes
  import opened Samples
  import opened Loader
  import opened Spectrum
  import opened Scan

  /** The header `save_data` writes is its two column names joined with a
      comma, so it splits back into `# f[Hz]` and ` a[dB]`, exactly the names
      `load_measurement` renames to `f` and `a`. */
  lemma HeaderNamesRenamed()
    ensures HeaderColumns(HeaderLine) == ["# f[Hz]", " a[dB]"]
    ensures RenameColumn(HeaderColumns(HeaderLine)[0]) == "f"
    ensures RenameColumn(HeaderColumns(HeaderLine)[1]) == "a"
  {
    var names := ["# f[Hz]", " a[dB]"];
    HeaderIsJoinedNames();
    assert forall i :: 0 <= i < |names| ==> ',' !in names[i];
    SplitJoin(names, ',');
  }

  lemma HeaderIsJoinedNames()
    ensures HeaderLine == Join(["# f[Hz]", " a[dB]"], ',')
  {
    var names := ["# f[Hz]", " a[dB]"];
    assert names[1..] == [" a[dB]"];
  }

  /** `show` prints coordinates without `_`, and `parse` reads them back. */
  predicate Readable(show: real -> string, parse: string -> Option<real>, v: real) {
    '_' !in show(v) && parse(show(v)) == Some(v)
  }

  /** The file saved for a stop loads as its rows, every one tagged with the
      stop's x and y. */
  lemma StopFileLoadsAtStop(show: real -> string, parse: string -> Option<real>, v: Vec3, rows: seq<Row>)
    requires Readable(show, parse, v.x) && Readable(show, parse, v.y)
    ensures LoadMeasurement(parse, [CsvFile(FileName(show, v), rows)]) == Success(Tag(v.x, v.y, rows))
  {
    SingleFileTagging(parse, show(v.x), show(v.y), rows);
  }

  /** A trace saved for a stop loads back as one row per trace value: the
      stop's position, the value's frequency on `start..stop`, and the value. */
  lemma SavedTraceLoadsBack(show: real -> string, parse: string -> Option<real>, v: Vec3,
                            data: seq<real>, start: real, stop: real)
    requires Readable(show, parse, v.x) && Readable(show, parse, v.y)
    ensures var loaded := LoadMeasurement(parse, [CsvFile(FileName(show, v), SaveData(data, start, stop, true).value)]);
            var freqs := CalculateFrequencies(start, stop, |data|).value;
            && loaded.Success?
            && |loaded.value| == |data|
            && forall k :: 0 <= k < |data| ==> loaded.value[k] == Sample(v.x, v.y, freqs[k], data[k])
  {
    StopFileLoadsAtStop(show, parse, v, SaveData(data, start, stop, true).value);
  }

  /** The files of a whole scan, one per stop in visiting order. */
  function ScanFiles(show: real -> string, stops: seq<Vec3>, traces: seq<seq<Row>>): (r: seq<CsvFile>)
    requires |traces| == |stops|
    ensures |r| == |stops|
    ensures forall k :: 0 <= k < |stops| ==> r[k] == CsvFile(FileName(show, stops[k]), traces[k])
  {
    seq(|stops|, k requires 0 <= k < |stops| => CsvFile(FileName(show, stops[k]), traces[k]))
  }

  /** Loading a whole scan's files succeeds, and every loaded row sits at
      one of the scan's stops. */
  lemma ScanLoadsAtStops(show: real -> string, parse: string -> Option<real>, stops: seq<Vec3>, traces: seq<seq<Row>>)
    requires |traces| == |stops|
    requires forall k :: 0 <= k < |stops| ==> Readable(show, parse, stops[k].x) && Readable(show, parse, stops[k].y)
    ensures LoadMeasurement(parse, ScanFiles(show, stops, traces)).Success?
    ensures forall s :: s in LoadMeasurement(parse, ScanFiles(show, stops, traces)).value ==>
              exists k :: 0 <= k < |stops| && PosOf(s) == PlanePos(stops[k])
  {
    var files := ScanFiles(show, stops, traces);
    forall k | 0 <= k < |files| && IsCsv(files[k])
      ensures NameParses(parse, files[k].name) && PositionOf(parse, files[k].name) == PlanePos(stops[k])
    {
      var name := FileName(show, stops[k]);
      assert name == ['x'] + show(stops[k].x) + ['_', 'y'] + show(stops[k].y) + ".csv";
      CoordinateTextsRoundTrip('x', show(stops[k].x), 'y', show(stops[k].y));
    }
    LoadedRowsAreTaggedFileRows(parse, files);
    forall s | s in LoadMeasurement(parse, files).value
      ensures exists k :: 0 <= k < |stops| && PosOf(s) == PlanePos(stops[k])
    {
      var k, i :| 0 <= k < |files| && IsCsv(files[k]) && NameParses(parse, files[k].name)
        && 0 <= i < |files[k].rows| && s == TaggedRow(parse, files[k], i);
      assert PosOf(s) == PlanePos(stops[k]);
    }
  }
}

=== FILE: samples.dfy ===
/** The records the processing script works on. */
module Samples {

  /** One CSV data row: frequency in Hz, amplitude in dB. */
  datatype Row = Row(f: real, a: real)

  /** One row of the combined table: the scan position in mm the row was
      measured at, and the row itself. */
  datatype Sample = Sample(x: real, y: real, f: real, a: real)

  /** A scan position in the plane of the board. */
  datatype Pos = Pos(x: real, y: real)

  function PosOf(s: Sample): Pos {
    Pos(s.x, s.y)
  }

  /** Positions ordered by x, then by y: the order `groupby` sorts its keys
      in, and the order the scan visits the board in. */
  predicate PosBefore(p: Pos, q: Pos) {
    p.x < q.x || (p.x == q.x && p.y < q.y)
  }

  predicate PosIncreasing(ps: seq<Pos>) {
    forall i, j :: 0 <= i < j < |ps| ==> PosBefore(ps[i], ps[j])
  }

  /** Two increasing runs, the first wholly before the second, make one increasing run. */
  lemma ConcatIncreasing(a: seq<Pos>, b: seq<Pos>)
    requires PosIncreasing(a) && PosIncreasing(b)
    requires forall p, q :: p in a && q in b ==> PosBefore(p, q)
    ensures PosIncreasing(a + b)
  {
    var c := a + b;
    forall k, l | 0 <= k < l < |c|
      ensures PosBefore(c[k], c[l])
    {
      if l < |a| {
        assert c[k] == a[k] && c[l] == a[l];
      } else if k < |a| {
        assert c[k] in a && c[l] in b;
      } else {
        assert c[k] == b[k - |a|] && c[l] == b[l - |a|];
      }
    }
  }
}

=== FILE: scan.dfy ===
/** The scan plan extracted from `measure.py`'s `main`: how many positions
    are visited, in which order, where, and which file each one is saved to.
    The plotter and analyser calls are outside the model; `start` is the
    position the plotter reports before the scan, and `show` stands for
    `str()` of a float in the file name's f-string. */
module Scan {
  import opened Outcomes
  import opened Samples

  datatype Vec3 = Vec3(x: real, y: real, z: real)

  /** `int(args.x / STEP_X)` with a zero step raises `ZeroDivisionError`. */
  datatype ScanError = ZeroStep

  function Abs(a: int): nat {
    if a < 0 then -a else a
  }

  /** `int(a / b)`: the true quotient, truncated toward zero. */
  function TruncDiv(a: int, b: int): int
    requires b != 0
  {
    if (a < 0) == (b < 0) then Abs(a) / Abs(b) else -(Abs(a) / Abs(b))
  }

  /** For a board dimension and a positive step, the visited span fits on
      the board and one more step would not. */
  lemma {:induction false} CountFitsBoard(size: int, step: int)
    requires 0 <= size && 0 < step
    ensures 0 <= TruncDiv(size, step)
    ensures TruncDiv(size, step) * step <= size
    ensures size < (TruncDiv(size, step) + 1) * step
  {
    var n := TruncDiv(size, step);
    assert n == size / step;
    DivisionSplit(size, step);
    assert (n + 1) * step == n * step + step;
  }

  /** Euclidean division of a natural number by a positive step. */
  lemma DivisionSplit(a: int, b: int)
    requires 0 <= a && 0 < b
    ensures 0 <= a / b && (a / b) * b <= a < (a / b) * b + b
  {
    var q, m := a / b, a % b;
    assert a == q * b + m;
  }

  /** `offset_pos`: the recorded start position moved by the `--offset` vector. */
  function Origin(start: Vec3, offset: (int, int, int)): Vec3 {
    Vec3(start.x + offset.0 as real, start.y + offset.1 as real, start.z + offset.2 as real)
  }

  /** The stop for x index `i` and y index `j`. */
  function Position(origin: Vec3, stepX: int, stepY: int, i: int, j: int): Vec3 {
    Vec3((stepX * i) as real + origin.x, (stepY * j) as real + origin.y, origin.z)
  }

  /** The inner loop: every y index for x index `i`, ascending. */
  function Column(origin: Vec3, stepX: int, stepY: int, i: int, countY: int): (r: seq<Vec3>)
    ensures |r| == if countY <= 0 then 0 else countY
    ensures forall j :: 0 <= j < |r| ==> r[j] == Position(origin, stepX, stepY, i, j)
  {
    if countY <= 0 then [] else seq(countY, j requires 0 <= j < countY => Position(origin, stepX, stepY, i, j))
  }

  /** Both loops: the columns for x indices `0 .. countX - 1`, in turn. */
  function Grid(origin: Vec3, stepX: int, stepY: int, countX: int, countY: int): seq<Vec3>
    decreases countX
  {
    if countX <= 0 then [] else Grid(origin, stepX, stepY, countX - 1, countY) + Column(origin, stepX, stepY, countX - 1, countY)
  }

  lemma {:induction false} GridLength(origin: Vec3, stepX: int, stepY: int, countX: int, countY: int)
    requires 0 <= countX && 0 <= countY
    ensures |Grid(origin, stepX, stepY, countX, countY)| == countX * countY
    decreases countX
  {
    if countX > 0 {
      GridLength(origin, stepX, stepY, countX - 1, countY);
      assert (countX - 1) * countY + countY == countX * countY;
    }
  }

  lemma IndexBelowRow(i: int, j: int, rows: int, countY: int)
    requires 0 <= i < rows && 0 <= j < countY
    ensures 0 <= i * countY + j < rows * countY
  {
    assert i * countY + j < (i + 1) * countY;
    assert (i + 1) * countY <= rows * countY;
  }

  /** Stop `i * countY + j` is the one for x index `i` and y index `j`. */
  lemma {:induction false} GridIndexAt(origin: Vec3, stepX: int, stepY: int, countX: int, countY: int, i: int, j: int)
    requires 0 <= i < countX && 0 <= j < countY
    ensures i * countY + j < |Grid(origin, stepX, stepY, countX, countY)|
    ensures Grid(origin, stepX, stepY, countX, countY)[i * countY + j] == Position(origin, stepX, stepY, i, j)
    decreases countX
  {
    GridLength(origin, stepX, stepY, countX, countY);
    GridLength(origin, stepX, stepY, countX - 1, countY);
    IndexBelowRow(i, j, countX, countY);
    var prev := Grid(origin, stepX, stepY, countX - 1, countY);
    var g := Grid(origin, stepX, stepY, countX, countY);
    assert g == prev + Column(origin, stepX, stepY, countX - 1, countY);
    if i < countX - 1 {
      IndexBelowRow(i, j, countX - 1, countY);
      GridIndexAt(origin, stepX, stepY, countX - 1, countY, i, j);
      assert g[i * countY + j] == prev[i * countY + j];
    } else {
      assert i * countY + j == |prev| + j;
    }
  }

  /** The grid holds `countX * countY` stops, x-major: stop `i * countY + j`
      is the one for x index `i` and y index `j`. */
  lemma {:induction false} GridIndex(origin: Vec3, stepX: int, stepY: int, countX: int, countY: int)
    requires 0 <= countX && 0 <= countY
    ensures |Grid(origin, stepX, stepY, countX, countY)| == countX * countY
    ensures forall i, j :: 0 <= i < countX && 0 <= j < countY ==>
              Grid(origin, stepX, stepY, countX, countY)[i * countY + j] == Position(origin, stepX, stepY, i, j)
  {
    GridLength(origin, stepX, stepY, countX, countY);
    var g := Grid(origin, stepX, stepY, countX, countY);
    forall i, j | 0 <= i < countX && 0 <= j < countY
      ensures i * countY + j < |g| && g[i * countY + j] == Position(origin, stepX, stepY, i, j)
    {
      GridIndexAt(origin, stepX, stepY, countX, countY, i, j);
    }
  }

  function PlanePos(v: Vec3): Pos {
    Pos(v.x, v.y)
  }

  function PlanePositions(vs: seq<Vec3>): (r: seq<Pos>)
    ensures |r| == |vs| && forall k :: 0 <= k < |vs| ==> r[k] == PlanePos(vs[k])
  {
    seq(|vs|, k requires 0 <= k < |vs| => PlanePos(vs[k]))
  }

  lemma {:induction false} ColumnIncreasing(origin: Vec3, stepX: int, stepY: int, i: int, countY: int)
    requires 0 < stepY
    ensures PosIncreasing(PlanePositions(Column(origin, stepX, stepY, i, countY)))
  {
    var ps := PlanePositions(Column(origin, stepX, stepY, i, countY));
    forall k, l | 0 <= k < l < |ps|
      ensures PosBefore(ps[k], ps[l])
    {
      ScaleStrict(stepY, k, l);
    }
  }

  lemma ScaleStrict(a: int, k: int, l: int)
    requires 0 < a && k < l
    ensures a * k < a * l
  {
    assert a * l == a * k + a * (l - k);
  }

  lemma {:induction false} GridLeftOf(origin: Vec3, stepX: int, stepY: int, countX: int, countY: int)
    requires 0 < stepX
    ensures forall v :: v in Grid(origin, stepX, stepY, countX, countY) ==> v.x < (stepX * countX) as real + origin.x
    decreases countX
  {
    if countX > 0 {
      var prev := Grid(origin, stepX, stepY, countX - 1, countY);
      var col := Column(origin, stepX, stepY, countX - 1, countY);
      var bound := (stepX * countX) as real + origin.x;
      GridLeftOf(origin, stepX, stepY, countX - 1, countY);
      ScaleStrict(stepX, countX - 1, countX);
      forall v: Vec3 | v in prev + col
        ensures v.x < bound
      {
        if v !in prev {
          var j :| 0 <= j < |col| && col[j] == v;
          assert v.x == (stepX * (countX - 1)) as real + origin.x;
        }
      }
    }
  }

  lemma {:induction false} PrevBeforeColumn(origin: Vec3, stepX: int, stepY: int, countX: int, countY: int)
    requires 0 < stepX && 0 < countX
    ensures forall p, q ::
              (p in PlanePositions(Grid(origin, stepX, stepY, countX - 1, countY))
               && q in PlanePositions(Column(origin, stepX, stepY, countX - 1, countY))) ==> PosBefore(p, q)
  {
    var prev := Grid(origin, stepX, stepY, countX - 1, countY);
    var col := Column(origin, stepX, stepY, countX - 1, countY);
    var edge := (stepX * (countX - 1)) as real + origin.x;
    GridLeftOf(origin, stepX, stepY, countX - 1, countY);
    forall p | p in PlanePositions(prev)
      ensures p.x < edge
    {
      PlanePositionOf(prev, p);
    }
    forall q | q in PlanePositions(col)
      ensures q.x == edge
    {
      PlanePositionOf(col, q);
    }
  }

  /** A position in `PlanePositions(vs)` is the plane position of a stop in `vs`. */
  lemma PlanePositionOf(vs: seq<Vec3>, p: Pos)
    requires p in PlanePositions(vs)
    ensures exists v :: v in vs && PlanePos(v) == p
  {
    var k :| 0 <= k < |vs| && PlanePositions(vs)[k] == p;
    assert vs[k] in vs;
  }

  /** With positive steps the stops are visited in increasing (x, y) order. */
  lemma {:induction false} GridVisitOrder(origin: Vec3, stepX: int, stepY: int, countX: int, countY: int)
    requires 0 < stepX && 0 < stepY
    ensures PosIncreasing(PlanePositions(Grid(origin, stepX, stepY, countX, countY)))
    decreases countX
  {
    if countX > 0 {
      GridVisitOrder(origin, stepX, stepY, countX - 1, countY);
      ColumnIncreasing(origin, stepX, stepY, countX - 1, countY);
      var prev := Grid(origin, stepX, stepY, countX - 1, countY);
      var col := Column(origin, stepX, stepY, countX - 1, countY);
      assert PlanePositions(prev + col) == PlanePositions(prev) + PlanePositions(col);
      PrevBeforeColumn(origin, stepX, stepY, countX, countY);
      ConcatIncreasing(PlanePositions(prev), PlanePositions(col));
    }
  }

  /** What `main` does with the plotter: the stops, then back home. */
  datatype Plan = Plan(origin: Vec3, stops: seq<Vec3>)

  /** The plan for a board of `width` x `height` mm scanned with the given
      steps from the plotter's reported `start` shifted by `offset`. */
  function ScanPlan(width: int, height: int, stepX: int, stepY: int, start: Vec3, offset: (int, int, int)): (r: Result<Plan, ScanError>)
    ensures r.Failure? <==> stepX == 0 || stepY == 0
    ensures r.Success? ==> r.value.origin == Origin(start, offset)
    ensures r.Success? ==> forall v :: v in r.value.stops ==> v.z == start.z + offset.2 as real
  {
    if stepX == 0 || stepY == 0 then Failure(ZeroStep)
    else
      var origin := Origin(start, offset);
      var stops := Grid(origin, stepX, stepY, TruncDiv(width, stepX), TruncDiv(height, stepY));
      assert forall v :: v in stops ==> v.z == origin.z by {
        GridHeight(origin, stepX, stepY, TruncDiv(width, stepX), TruncDiv(height, stepY));
      }
      Success(Plan(origin, stops))
  }

  lemma {:induction false} GridHeight(origin: Vec3, stepX: int, stepY: int, countX: int, countY: int)
    ensures forall v :: v in Grid(origin, stepX, stepY, countX, countY) ==> v.z == origin.z
    decreases countX
  {
    if countX > 0 {
      GridHeight(origin, stepX, stepY, countX - 1, countY);
    }
  }

  lemma TruncDivNonNegative(a: int, b: int)
    requires 0 <= a && 0 < b
    ensures 0 <= TruncDiv(a, b)
  {
  }

  lemma PlanIsGrid(width: int, height: int, stepX: int, stepY: int, start: Vec3, offset: (int, int, int))
    requires 0 < stepX && 0 < stepY
    ensures ScanPlan(width, height, stepX, stepY, start, offset).value.origin == Origin(start, offset)
    ensures ScanPlan(width, height, stepX, stepY, start, offset).value.stops
         == Grid(Origin(start, offset), stepX, stepY, TruncDiv(width, stepX), TruncDiv(height, stepY))
  {
  }

  /** With positive steps on a board of non-negative size, the scan makes
      `int(x / STEP_X) * int(y / STEP_Y)` stops; stop `i * countY + j` is at
      `(STEP_X * i + origin.x, STEP_Y * j + origin.y, origin.z)`, and the stops
      come in increasing (x, y) order. */
  lemma ScanPlanStops(width: int, height: int, stepX: int, stepY: int, start: Vec3, offset: (int, int, int), plan: Plan)
    requires 0 < stepX && 0 < stepY && 0 <= width && 0 <= height
    requires ScanPlan(width, height, stepX, stepY, start, offset) == Success(plan)
    ensures |plan.stops| == TruncDiv(width, stepX) * TruncDiv(height, stepY)
    ensures forall i, j :: 0 <= i < TruncDiv(width, stepX) && 0 <= j < TruncDiv(height, stepY) ==>
              plan.stops[i * TruncDiv(height, stepY) + j] == Position(plan.origin, stepX, stepY, i, j)
    ensures PosIncreasing(PlanePositions(plan.stops))
  {
    var countX := TruncDiv(width, stepX);
    var countY := TruncDiv(height, stepY);
    TruncDivNonNegative(width, stepX);
    TruncDivNonNegative(height, stepY);
    PlanIsGrid(width, height, stepX, stepY, start, offset);
    GridIndex(plan.origin, stepX, stepY, countX, countY);
    GridVisitOrder(plan.origin, stepX, stepY, countX, countY);
  }

  /** Every absolute move of the plotter: first to the offset origin, then
      to each stop, then back to the recorded start. */
  function Moves(start: Vec3, plan: Plan): (r: seq<Vec3>)
    ensures |r| == |plan.stops| + 2
    ensures r[0] == plan.origin && r[|r| - 1] == start
    ensures r[1..|r| - 1] == plan.stops
  {
    [plan.origin] + plan.stops + [start]
  }

  /** Every move of a scan but the last, back to the recorded start, is at
      the offset origin's height: the probe stays at one height while it
      measures. */
  lemma MovesStayAtProbeHeight(width: int, height: int, stepX: int, stepY: int, start: Vec3, offset: (int, int, int), plan: Plan)
    requires ScanPlan(width, height, stepX, stepY, start, offset) == Success(plan)
    ensures forall k :: 0 <= k < |Moves(start, plan)| - 1 ==> Moves(start, plan)[k].z == start.z + offset.2 as real
  {
    var moves := Moves(start, plan);
    forall k | 0 <= k < |moves| - 1
      ensures moves[k].z == start.z + offset.2 as real
    {
      if 0 < k {
        assert moves[k] == plan.stops[k - 1];
      }
    }
  }

  /** `f"x{x_pos}_y{y_pos}.csv"`. */
  function FileName(show: real -> string, v: Vec3): string {
    "x" + show(v.x) + "_y" + show(v.y) + ".csv"
  }
}

=== FILE: slicing.dfy ===
/** Python's sequence primitives that the scripts rely on: slicing with
    negative and out-of-range bounds, `str.find` and `str.endswith`. */
module Slicing {

  /** Where a slice bound `i` lands in a sequence of length `n`: a negative
      bound counts from the end, and the result is clamped into `[0, n]`. */
  function Bound(i: int, n: nat): (b: nat)
    ensures b <= n
    ensures 0 <= i <= n ==> b == i
    ensures i < 0 <= n + i ==> b == n + i
    ensures i > n ==> b == n
    ensures n + i < 0 ==> b == 0
  {
    if i < 0 then (if n + i < 0 then 0 else n + i)
    else if i > n then n
    else i
  }

  /** `s[i:j]`: never fails; an inverted range is empty. */
  function Slice<T>(s: seq<T>, i: int, j: int): (r: seq<T>)
    ensures |r| <= |s|
    ensures Bound(i, |s|) <= Bound(j, |s|) ==> r == s[Bound(i, |s|)..Bound(j, |s|)]
    ensures Bound(j, |s|) < Bound(i, |s|) ==> r == []
  {
    var lo := Bound(i, |s|);
    var hi := Bound(j, |s|);
    if lo <= hi then s[lo..hi] else []
  }

  /** `s.find(c)`: the index of the first `c`, or -1 when there is none. */
  function Find<T(==)>(s: seq<T>, c: T): (r: int)
    ensures -1 <= r < |s|
    ensures r == -1 <==> c !in s
    ensures 0 <= r ==> s[r] == c && c !in s[..r]
  {
    if |s| == 0 then -1
    else if s[0] == c then 0
    else
      var k := Find(s[1..], c);
      if k == -1 then -1
      else
        assert s[..k + 1] == [s[0]] + s[1..][..k];
        k + 1
  }

  /** The first index holding `c` is what `Find` reports. */
  lemma FindFirst<T>(s: seq<T>, c: T, k: int)
    requires 0 <= k < |s| && s[k] == c
    requires forall i :: 0 <= i < k ==> s[i] != c
    ensures Find(s, c) == k
  {
  }

  /** `s.endswith(suffix)`. */
  predicate EndsWith<T(==)>(s: seq<T>, suffix: seq<T>) {
    |suffix| <= |s| && s[|s| - |suffix|..] == suffix
  }

  /** The elements of `s` that satisfy `p`, in their original order. */
  function Filter<T(!new)>(p: T -> bool, s: seq<T>): (r: seq<T>)
    ensures |r| <= |s|
    ensures forall v :: v in r <==> v in s && p(v)
  {
    if |s| == 0 then []
    else if p(s[0]) then [s[0]] + Filter(p, s[1..])
    else Filter(p, s[1..])
  }

  /** Filtering a one-element sequence keeps the element exactly when it satisfies `p`. */
  lemma FilterSingleton<T(!new)>(p: T -> bool, v: T)
    ensures Filter(p, [v]) == if p(v) then [v] else []
  {
    assert [v][1..] == [];
  }

  /** Filtering distributes over concatenation, so the kept elements stay in
      their original order, repeats included. */
  lemma {:induction false} FilterConcat<T(!new)>(p: T -> bool, s1: seq<T>, s2: seq<T>)
    ensures Filter(p, s1 + s2) == Filter(p, s1) + Filter(p, s2)
    decreases |s1|
  {
    if |s1| == 0 {
      assert s1 + s2 == s2;
    } else {
      assert (s1 + s2)[0] == s1[0];
      assert (s1 + s2)[1..] == s1[1..] + s2;
      FilterConcat(p, s1[1..], s2);
    }
  }
}

=== FILE: spectrum.dfy ===
/** The spectrum-analyser side of acquisition (`control/SA.py`): framing of
    the trace response as a definite-length arbitrary block (section 8.7.9 of
    IEEE 488.2), the frequency axis of a trace, and the rows written per
    scan position. The instrument I/O and the `float32` decoding of the
    payload are outside the model. */
module Spectrum {
  import opened Outcomes
  import opened Slicing
  import opened Samples

  type byte = b: int | 0 <= b < 256

  /** ASCII `#`, which opens every arbitrary block. */
  const Hash: byte := 35

  /** ASCII `0`. */
  const Zero: byte := 48

  predicate IsDigit(b: byte) {
    Zero <= b <= Zero + 9
  }

  predicate AllDigits(s: seq<byte>) {
    forall i :: 0 <= i < |s| ==> IsDigit(s[i])
  }

  /** Why `query_spectrum` gives up: an empty response (`IndexError`), a
      first byte other than `#` (logged, then `sys.exit()`), a length-of-count
      byte that is not a digit, or a count field `int()` rejects (`ValueError`). */
  datatype FrameError = EmptyResponse | NotABlock | BadLengthDigit | BadCount

  /** The payload `query_spectrum` hands to `np.frombuffer`: the bytes after
      the header up to, but not including, the last byte. */
  function QuerySpectrum(data: seq<byte>): (r: Result<seq<byte>, FrameError>)
    ensures |data| == 0 ==> r == Failure(EmptyResponse)
    ensures 0 < |data| && data[0] != Hash ==> r == Failure(NotABlock)
    ensures 0 < |data| && data[0] == Hash && (|data| < 2 || !IsDigit(data[1])) ==> r == Failure(BadLengthDigit)
    ensures 2 <= |data| && data[0] == Hash && IsDigit(data[1]) && r.Failure? ==> r == Failure(BadCount)
    ensures r.Success? <==> 3 <= |data| && data[0] == Hash && IsDigit(data[1]) && 1 <= data[1] - Zero
                            && AllDigits(Slice(data, 2, 2 + (data[1] - Zero)))
    ensures r.Success? ==> 2 <= |data| && data[0] == Hash && IsDigit(data[1])
    ensures r.Success? ==> var n := data[1] - Zero;
              1 <= n && 3 <= |data|
              && r.value == (if n + 2 <= |data| - 1 then data[n + 2..|data| - 1] else [])
  {
    if |data| == 0 then Failure(EmptyResponse)
    else if data[0] != Hash then Failure(NotABlock)
    else
      var lengthField := Slice(data, 1, 2);
      if |lengthField| != 1 || !IsDigit(lengthField[0]) then Failure(BadLengthDigit)
      else
        var n := lengthField[0] - Zero;
        var countField := Slice(data, 2, 2 + n);
        if |countField| == 0 || !AllDigits(countField) then Failure(BadCount)
        else Success(Slice(data, 2 + n, -1))
  }

  /** A block built from a header of `N` count digits, a payload and one
      terminator byte yields exactly the payload, whatever count the digits
      declare: the count is never compared with the payload length. */
  lemma BlockRoundTrip(count: seq<byte>, payload: seq<byte>, terminator: byte)
    requires 1 <= |count| <= 9 && AllDigits(count)
    ensures QuerySpectrum([Hash, Zero + |count|] + count + payload + [terminator]) == Success(payload)
  {
    var data := [Hash, Zero + |count|] + count + payload + [terminator];
    assert data[1] == Zero + |count|;
    assert Slice(data, 1, 2) == [data[1]];
    assert Slice(data, 2, 2 + |count|) == count;
    assert Slice(data, 2 + |count|, -1) == payload;
  }

  /** The indefinite form `#0...` leaves the count field empty, which `int()` rejects. */
  lemma IndefiniteBlockRejected(rest: seq<byte>)
    ensures QuerySpectrum([Hash, Zero] + rest) == Failure(BadCount)
  {
    var data := [Hash, Zero] + rest;
    assert Slice(data, 1, 2) == [Zero];
  }

  /** A count field that is not decimal digits, such as `#2ab`, is rejected
      as `int()` rejects it. */
  lemma NonDigitCountRejected(payload: seq<byte>)
    ensures QuerySpectrum([Hash, Zero + 2, 97, 98] + payload) == Failure(BadCount)
  {
    var data := [Hash, Zero + 2, 97, 98] + payload;
    assert Slice(data, 1, 2) == [Zero + 2];
    assert Slice(data, 2, 4)[0] == 97;
  }

  /** `np.linspace(start, stop, count)`: `None` for a negative count
      (`ValueError`). Values are `start + i * step` with
      `step = (stop - start) / (count - 1)`, the last one set to `stop`. */
  function CalculateFrequencies(start: real, stop: real, count: int): (r: Option<seq<real>>)
    ensures r.None? <==> count < 0
    ensures r.Some? ==> |r.value| == count
    ensures r.Some? && 1 <= count ==> r.value[0] == start
    ensures r.Some? && 2 <= count ==> r.value[count - 1] == stop
  {
    if count < 0 then None
    else
      var step := if count > 1 then (stop - start) / (count - 1) as real else 0.0;
      Some(seq(count, i requires 0 <= i < count => if 1 < count && i == count - 1 then stop else start + i as real * step))
  }

  /** Neighbouring frequencies are all `(stop - start) / (count - 1)` apart. */
  lemma FrequenciesEvenlySpaced(start: real, stop: real, count: int, i: int)
    requires 2 <= count && 0 <= i < count - 1
    ensures var f := CalculateFrequencies(start, stop, count).value;
            f[i + 1] - f[i] == (stop - start) / (count - 1) as real
  {
    var d := (stop - start) / (count - 1) as real;
    var f := CalculateFrequencies(start, stop, count).value;
    assert d * (count - 1) as real == stop - start;
    if i + 1 == count - 1 {
      assert f[i] == start + i as real * d;
      assert (i as real) * d == d * (count - 1) as real - d;
    } else {
      assert f[i + 1] == start + (i + 1) as real * d;
      assert (i + 1) as real * d == i as real * d + d;
    }
  }

  /** The header `np.savetxt` writes: its comment prefix `# `, then `header`. */
  const HeaderLine: string := "# f[Hz], a[dB]"

  /** `save_data(data, start, stop, path)`: `None` when the parent directory
      is missing (an error is logged and nothing is written); otherwise the
      rows written below `HeaderLine`, row `i` pairing the `i`-th frequency of
      `start..stop` with `data[i]`. */
  function SaveData(data: seq<real>, start: real, stop: real, parentExists: bool): (r: Option<seq<Row>>)
    ensures r.Some? <==> parentExists
    ensures r.Some? ==> |r.value| == |data|
    ensures r.Some? ==> forall i :: 0 <= i < |data| ==> r.value[i].a == data[i]
    ensures r.Some? ==> forall i :: 0 <= i < |data| ==> r.value[i].f == CalculateFrequencies(start, stop, |data|).value[i]
    ensures r.Some? && 1 <= |data| ==> r.value[0].f == start
    ensures r.Some? && 2 <= |data| ==> r.value[|data| - 1].f == stop
  {
    var freqs := CalculateFrequencies(start, stop, |data|).value;
    if !parentExists then None
    else Some(seq(|data|, i requires 0 <= i < |data| => Row(freqs[i], data[i])))
  }
}
